=== FILE: README.md ===
# Tokenizer and precedence-climbing parser of the `code` language

This project models the front end of the `code` compiler in Dafny:

- **Rune cursor.** The lexer reads UTF-8 source one rune at a time (`parser_peek`, `parser_advance`, `parser_load`).
- **Tokenizer.** `parser_get_token` turns runes into tokens. It exists in two revisions:
  - the current one in `code/code_parser.c`;
  - an earlier one in `code/code.c`, whose driver only dumps the token tags.
- **Parser.** It builds a syntax tree:
  - `parser_parse_node` is a precedence-climbing expression parser with prefix operators, brackets, ternary `->` and `?` with an optional third part, and invisible invocation by juxtaposition;
  - `parser_parse_scope` collects the statements of a scope.
- **Leaf values.** Identifiers, text and decimal numerals keep their source bytes. A `digital` literal is folded to a 64-bit value.

How the model is built:

- **Errors.** The C code reports an error and `jump`s to a failure landing. In the model every fallible operation returns an `Outcome`: `Done(value)`, `Failed(failure)` or `Hangs`.
  - `Failed` carries the failure reported just before the jump. The one exception is `Unimplemented`: there the C code stops on a failed assertion (`UNIMPLEMENTED`, `code/code.h:35`) rather than jumping.
  - `Hangs` stands for the loops of the C code that never exit when they reach the end of the source. Examples are an unterminated `--` comment, an unterminated text literal, and a malformed numeral at the end.
  - `Runes.EndIsFixedPoint` shows why such loops never exit: at the end, advancing leaves the cursor where it is.
- **Token stream.** `parser_get_token` reads nothing but the rune cursor. So the parser is modelled over the stream of tokens the tokenizer produces (`Lexer.TokenStream`). The stream also records how the next call behaves after its last token:
  - it returns the same `etx` again;
  - it fails;
  - or it never returns.

  `Parser.Next` is one call of `parser_get_token`.
- **Recursion.** The parser's functions are mutually recursive, exactly as `parser_parse_node` and `parser_parse_scope` call each other. Termination is by the number of tokens left, then a rank per function.

Module layout:

| module | file | contents |
|---|---|---|
| Utf8 | utf8.dfy | the byte codec |
| Tokens, Outcomes | tokens.dfy | token tags, tokens, failures, `Outcome` |
| Runes | runes.dfy | the rune cursor |
| Lexer | lexer.dfy | both tokenizer revisions, tokenization of a whole source, the token dump |
| LexerFacts | lexer_facts.dfy | properties relating several tokenizer calls |
| Nodes | nodes.dfy | syntax tree, precedence table, `digital` values, the scope's growable node array |
| Parser | parser.dfy | the parser |
| ParserFacts | parser_facts.dfy | what the parser builds for small token sequences: binding, associativity, juxtaposition, ternaries, errors |
| PrecedenceFacts | precedence_facts.dfy | the precedence discipline of the parser for every input |
| ScopeFacts | scope_facts.dfy | the statement loop: separators, scope ends, misplaced braces |

## Model

| member | source | states |
|---|---|---|
| Utf8.DecodeEncode | code/code_parser.c:60-80 | decoding the encoding of any scalar value, followed by any bytes, gives back that value with the encoding's length |
| Utf8.EncodeDecode | code/code_parser.c:60-80 | a rune the decoder accepts is exactly the bytes its encoding gives, so a decoded rune spans its canonical encoding |
| Utf8.TruncationRejected | code/code_parser.c:60-80 | the lead byte of a multi-byte sequence alone is malformed, which the cursor reports as an unknown rune |
| Runes.Peek | code/code_parser.c:60-80 | past the end the peeked rune is the ETX sentinel with width 0; inside the source the peek succeeds exactly when the decoder reads a rune after the current one, and gives that rune; a malformed sequence fails as an unknown rune at the current position |
| Runes.Advance | code/code_parser.c:82-97 | the position moves by the width of the current rune; the column restarts at 1 after a line feed and otherwise grows by one; a well-formed cursor stays well formed; the move succeeds exactly when the peek does, so always over ASCII bytes |
| Runes.Load | code/code_parser.c:114-131 | the first rune is read at position 0, row 1, column 1; loading fails exactly when the source starts with a malformed sequence |
| Runes.ColumnStep | code/code_parser.c:82-97 | advancing over a line feed moves to column 1 of the next line, and over any other rune to the next column, with the column counted as runes since the last line feed |
| Runes.EndIsFixedPoint | code/code_parser.c:82-97 | at the end of the source, any number of advances leaves position and rune unchanged and only counts the column up; this is why the scanning loops never exit there |
| Lexer.SkipWhitespace | code/code_parser.c:136 | stops at the first rune that is not whitespace, and every byte skipped is whitespace; over ASCII bytes it never fails |
| Lexer.IdentifierTail | code/code_parser.c:326-327 | stops at the first rune that cannot continue an identifier, and every rune passed over can; over ASCII bytes it never fails |
| Lexer.SkipToWhitespace | code/code_parser.c:357 | stops on the first whitespace rune; it hangs only when no whitespace follows before the end, and over ASCII bytes it never fails |
| Lexer.NumeralTail | code/code_parser.c:346-365 | a numeral spans only digits, `_` and `.`; it is `Decimal` exactly when it holds one `.`; a second `.` is never a token: it fails as a malformed numeral at the token's start, or hangs when no whitespace follows before the end |
| Lexer.NumeralTailHangs | code/code_parser.c:346-365 | the numeral loop hangs only when no whitespace follows before the end of the source, and over ASCII bytes it never meets an unknown rune |
| Lexer.CommentTail | code/code_parser.c:203-204 | a `--` comment that ends stops on its first line feed, with no line feed before the stop; it hangs only when no line feed follows; over ASCII bytes it never fails |
| Lexer.TextBody | code/code_parser.c:279-292 | a text literal that ends stops on a `"`, at least one rune after the opening one; when no `\` lies between, no `"` does either, so that stop is the first `"` |
| Lexer.TextBodyQuotes | code/code_parser.c:279-292 | before the `"` the literal loop stops on, no `"` lies that only unescaped bytes separate from the opening quote; it hangs only when no such `"` follows at all; over ASCII bytes it never fails |
| Lexer.Operator | code/code_parser.c:150-277 | a rune pair listed in the operator table gives that entry, two runes wide; any other rune gives a single-rune token tagged with itself |
| Lexer.OperatorToken | code/code_parser.c:150-277 | the tag of a punctuation token is the one `Operator` chooses, and the token spans exactly its runes; over ASCII bytes it never fails |
| Lexer.ShiftToken | code/code_parser.c:215-226 | `<<` and `>>` give the assigning shift tag exactly when the byte after them is `=`, and the plain shift tag otherwise; the plain shift still spans the third rune when there is one; over ASCII bytes it never fails |
| LexerFacts.ShiftPair | code/code_parser.c:215-252 | in both revisions `<<` and `>>` are one token, tagged by whether `=` follows, and a token of at least three runes whenever the source goes on |
| Lexer.TextToken | code/code_parser.c:278-295 | a `"` literal is tagged `Text` in the current revision and `String` in the earlier one (code/code.c:274-291); it spans both quotes, and without a `\` inside it has no `"` inside either |
| Lexer.TextTokenQuotes | code/code_parser.c:278-295 | a literal ends just after the first `"` that only unescaped bytes separate from its opening quote; with no such `"` it hangs; over ASCII bytes it never fails |
| Lexer.IdentifierToken | code/code_parser.c:324-329 | an identifier starts with a letter or `_` and spans every identifier rune that follows; over ASCII bytes it never fails |
| Lexer.NumeralToken | code/code_parser.c:330-366 | a numeral starting with a digit is `Digital` or `Decimal` and spans only numeral runes; it hangs only when no whitespace follows before the end, and over ASCII bytes it fails only as malformed |
| Lexer.UnknownToken | code/code_parser.c:367-372 | any other rune becomes a one-rune `Unknown` token, and the scan goes on; over ASCII bytes it never fails |
| Lexer.Classify | code/code_parser.c:147-375 | a token other than `etx` consumes at least one rune; `etx` is returned exactly when the current rune is 3, at the end of the source or at a 0x03 byte inside it, and it leaves the cursor in place; only the current revision restarts after a comment |
| Lexer.ClassifyHangs | code/code_parser.c:147-375 | a token scan hangs only on a comment with no line feed after it, a literal that no `"` closes, or a numeral with no whitespace after it; over ASCII bytes it never meets an unknown rune |
| Lexer.GetToken | code/code_parser.c:133-381 | the token starts after whitespace, on a non-whitespace byte; its row counts the line feeds before it and its column counts the runes since the last line feed; its span has the shape of its tag; only `etx` is empty, and it fails only on an unknown rune or a malformed numeral |
| Lexer.GetTokenHangs | code/code_parser.c:133-381 | the call for the next token hangs only when such a stuck comment, literal or numeral starts at or after the cursor; over ASCII bytes it fails only on a malformed numeral |
| Lexer.TokenizeFrom | code/code_parser.c:133-381 | the tokens come in source order and inside the source; `etx` can only be last, and it is last exactly when the stream ends normally |
| Lexer.Tokenize | code/code_parser.c:114-131 | tokenizing a whole source from the loaded cursor gives such a stream from position 0 |
| Lexer.Dump | code/code.c:435-438 | the dump never reports `etx` |
| LexerFacts.MaximalMunch | code/code_parser.c:150-277 | in both revisions a pair in the operator table is always one token of two runes, never two tokens |
| LexerFacts.SingleRuneFallback | code/code_parser.c:313-315 | a punctuation rune without a table entry for its pair is a token of its own, tagged with the rune |
| LexerFacts.EarlyDoubleMinus | code/code.c:192-203 | the earlier revision has no comments: `--` is one minus token, then another |
| LexerFacts.CommentRestarts | code/code_parser.c:201-206 | in the current revision `--` produces no token; the scan restarts at the first line feed after it |
| LexerFacts.EtxIsFixedPoint | code/code_parser.c:147-149 | once `etx` is returned, the next call returns the same token and cursor |
| LexerFacts.EndYieldsEtx | code/code_parser.c:375 | at the end of the source every call yields an empty `etx` token at the cursor |
| LexerFacts.UnterminatedComment | code/code_parser.c:203-204 | a comment with no line feed after it never ends; over ASCII bytes it hangs |
| LexerFacts.CommentEnds | code/code_parser.c:203-204 | over ASCII bytes a comment ends on the first line feed after it |
| LexerFacts.UnterminatedText | code/code_parser.c:279-292 | a text literal with no `"` after its opening one never produces a token; over ASCII bytes it hangs |
| LexerFacts.ClosedText | code/code_parser.c:278-295 | over ASCII bytes, a literal whose closing `"` has no `\` and no other `"` before it ends just after that quote |
| LexerFacts.NumeralTailEnds | code/code_parser.c:346-365 | over ASCII bytes the numeral loop runs over numeral runes holding at most one `.` and stops on the first other rune |
| LexerFacts.NumeralEnds | code/code_parser.c:330-366 | over ASCII bytes a numeral with at most one `.` ends on the first rune that is not a digit, `_` or `.`, and it is `Decimal` exactly when it holds the `.` |
| LexerFacts.EscapeHidesClosingQuote | code/code_parser.c:283-291 | in the source `"\n"` the closing quote is passed over after the escape, so the literal never ends |
| LexerFacts.DumpReportsTokens | code/code.c:435-438 | the dump reports the tags of exactly the tokens before the first `etx`, and stops the way tokenization stops |
| Nodes.DigitalValue | code/code_parser.c:835-861 | the value of a `digital` literal always fits in 64 bits |
| Nodes.DigitalIsNumeralModWord | code/code_parser.c:835-861 | a `digital` value is the decimal value of its digits, ignoring `_`, reduced modulo 2^64 |
| Nodes.DigitalRender | code/code_parser.c:835-861 | every 64-bit value is read back from its decimal rendering |
| Nodes.DigitalWraps | code/code_parser.c:835-861 | a rendering of a larger number wraps around modulo 2^64 |
| Nodes.UnderscoreIgnored | code/code_parser.c:857 | an `_` anywhere in a literal does not change its value |
| Nodes.Append | code/code_parser.c:765-776 | appending keeps the earlier nodes in order, adds the new node last, and never shrinks the capacity |
| Nodes.AppendAllKeepsOrder | code/code_parser.c:757-776 | a run of appends from capacity 8 keeps every node in order, with the capacity grown by half each time it is full |
| Parser.Next | code/code_parser.c:133-381 | the next token is the following one; at `etx` the same token again; at the end of a stream that breaks off, the lexer's failure or endless loop |
| Parser.Ensure | code/code_parser.c:383-390 | succeeds exactly when the current token has the expected tag, and fails with `Expected token` naming that tag at the current token otherwise |
| Parser.ParseNode | code/code_parser.c:473-682 | a node parse never moves backwards; it stays in place only with no node, at a terminator, at `=`, or at `{` after `->`; every failure is the parser's own or the lexer's |
| Parser.Operand | code/code_parser.c:479-576 | an operand that produces a node consumes at least one token; at a terminator or `=` it yields nothing in place |
| Parser.Bracketed | code/code_parser.c:494-503 | a parenthesised or indexed operand is a subexpression or indexation node, and the token before the one it stops at is the matching `)` or `]` |
| Parser.Prefixed | code/code_parser.c:513-522 | a prefix operator produces a node and consumes at least the operator |
| Parser.Climb | code/code_parser.c:577-682 | the operator loop returns the tree so far, in place, exactly when the current token stops it at the threshold |
| Parser.Bind | code/code_parser.c:642-651 | a binding operator consumes at least one token and produces a node |
| Parser.Join | code/code_parser.c:651-676 | after the right operand the loop goes on, producing a node and never moving back |
| Parser.Third | code/code_parser.c:653-673 | a ternary's third part is taken only after `{` or `:`; otherwise there is none and nothing moves |
| Parser.ParseScope | code/code_parser.c:752-762 | a nested scope produces a scope node and ends right after a `}` |
| Parser.Kept | code/code_parser.c:765-777 | a statement's node is appended to the scope; an empty statement adds nothing |
| Parser.Statements | code/code_parser.c:762-778 | the statements collected so far are a prefix of the result; a nested scope ends after `}`; the root scope ends at `etx` |
| Parser.Separator | code/code_parser.c:779-811 | `;` continues the loop; `etx` ends the root scope in place and fails a nested one as unterminated; `}` ends a nested scope after it and fails the root as extraneous; any other token fails as not implemented; the kept nodes are a prefix of the result |
| Parser.Parse | code/code_parser.c:752-811 | a source without tokens fails or hangs as its stream does; every failure is the parser's own or the lexer's |
| Parser.ParseSource | code/code_parser.c:880-904 | parsing a source fails only with a parser failure or the failure its tokenization ends with |
| Parser.TokenizedIsValid | code/code_parser.c:761 | every stream the tokenizer produces meets what the parser assumes of its input |
| PrecedenceFacts.ParseNodeRespects | code/code_parser.c:473-682 | for every input, a node parsed at threshold `p` has a root binding tighter than `p` (or is an operand), and it stops at a token that cannot bind above `p` |
| PrecedenceFacts.ClimbRespects | code/code_parser.c:642-643 | the operator loop keeps that invariant on every turn |
| PrecedenceFacts.JoinRespects | code/code_parser.c:651-676 | building a binary or ternary node with a binding operator keeps the invariant |
| ParserFacts.OperatorTable | code/code_parser.c:400-463 | only `->` and `?` take a third part; `.` alone never binds; every prefix operator binds tighter than every infix operator but `->`; no infix token stands for a bracket or prefix operator |
| ParserFacts.IdentifierOperand | code/code_parser.c:537-541 | an identifier is an operand one token long, the leaf holding its bytes |
| ParserFacts.BindBinary | code/code_parser.c:640-651 | the loop body for a binding binary operator skips it, parses the right operand at the operator's precedence, and continues with the binary node |
| ParserFacts.InvokeStep | code/code_parser.c:634-651 | the invocation branch parses its argument from the current token, skipping nothing |
| ParserFacts.TernaryStep | code/code_parser.c:651-676 | the loop body for `->` or `?` skips the operator, parses the middle operand, then the third part, and continues with the ternary node |
| ParserFacts.BindSkips | code/code_parser.c:642-651 | a visible operator is skipped before its right operand is parsed |
| ParserFacts.PrefixStep | code/code_parser.c:513-522 | a prefix operator is the unary node of the operand parsed after it at the operator's precedence |
| ParserFacts.LoneIdentifier | code/code_parser.c:537-541 | an identifier before a terminator is a leaf holding its bytes, one token long |
| ParserFacts.OneOperator | code/code_parser.c:640-651 | `a op b` is the binary node of `op` at the lowest threshold |
| ParserFacts.OperatorBinds | code/code_parser.c:640-651 | `a op b` is one binary node when `op` binds above the threshold, and the operand alone otherwise |
| ParserFacts.TighterNests | code/code_parser.c:640-676 | in `a op1 b op2 c` with `op2` binding tighter, `op2` nests on the right |
| ParserFacts.LooserAssociatesLeft | code/code_parser.c:640-676 | with `op2` binding no tighter, the expression groups to the left, so equal precedences associate left |
| ParserFacts.TwoOperators | code/code_parser.c:640-676 | the two groupings of `a op1 b op2 c` follow the order of the two precedences in both directions |
| ParserFacts.Juxtaposition | code/code_parser.c:634-651 | two identifiers side by side form an invocation node, with no token skipped for the operator |
| ParserFacts.ConditionTakesDeclaration | code/code_parser.c:633-673 | `a ? b : c` is a condition whose right part is the declaration `b : c`, not a condition with a third part, because `:` binds tighter than `?` |
| ParserFacts.ProcedureWithResult | code/code_parser.c:653-673 | `a -> b : c` is a procedure with parameter `b` and result `c` in its third part, because `:` does not bind above the procedure's precedence |
| ParserFacts.ResolutionNeverBinds | code/code_parser.c:400-463 | `.` has precedence 0, so it never binds: `x . y` stops before the `.` at every threshold |
| ParserFacts.PragmaLeavesName | code/code_parser.c:482-492 | a pragma produces no node and leaves its name as the current token |
| ParserFacts.PragmaNeedsName | code/code_parser.c:392-396 | `#` not followed by an identifier fails with `Expected token` naming the identifier tag |
| ParserFacts.MismatchedBracket | code/code_parser.c:495-503 | `( x ]` fails, expecting `)` at the `]` |
| ParserFacts.Parenthesized | code/code_parser.c:494-503 | `( x )` is a subexpression node around `x`, ending after the `)` |
| ParserFacts.PrefixBindsTighter | code/code_parser.c:513-522 | `- a + b` is the sum of the negation and `b`, because negation binds tighter than every binary operator |
| ScopeFacts.StatementContinues | code/code_parser.c:779-783 | after a statement and `;` the loop goes on with the statement's node kept |
| ScopeFacts.ScopeCloses | code/code_parser.c:791-797 | in a nested scope a `}` after a statement ends the scope after the `}` with the statement's node kept |
| ScopeFacts.RootEnds | code/code_parser.c:784-790 | in the root scope `etx` after a statement ends the program at the `etx` with the statement's node kept |
| ScopeFacts.EmptyStatement | code/code_parser.c:764-783 | a `;` where a statement starts adds no node |
| ScopeFacts.EmptyScope | code/code_parser.c:752-811 | `{ }` is a scope with no nodes, and the token after `}` is current |
| ScopeFacts.SingletonScope | code/code_parser.c:752-811 | `{ x }` is a scope with the single node `x` |
| ScopeFacts.ProcedureWithBody | code/code_parser.c:527-534 | in `x -> { y }` the `{` starts the procedure's body (its third part), not its parameter |
| ScopeFacts.ExtraneousBrace | code/code_parser.c:791-797 | a `}` in the root scope fails as extraneous |
| ScopeFacts.UnterminatedScope | code/code_parser.c:784-790 | `{ x` then `etx` fails as unterminated, at the `etx` |
| ScopeFacts.PragmaStatement | code/code_parser.c:798-800 | a pragma statement leaves its name current, and the statement loop fails there as not implemented |
| ScopeFacts.ResolutionStatement | code/code_parser.c:798-800 | `x . y` as a statement fails at the `.` as not implemented |
| ScopeFacts.EmptyStatementsDropped | code/code_parser.c:764-783 | the program `a ; ; b` is the two nodes `a` and `b` |

## Left out

- **UTF-8 decoding.** Only the declarations of `decode_utf8`/`encode_utf8` are in the repository (`code/code.h`); their bodies are not part of this model. They are modelled by a strict RFC 3629 codec. A malformed sequence reports the bytes inspected.
- **Reports and display.** Report text, source excerpts and `display_node` are output only, so they are left out. A failure keeps only its kind and the token or position it is reported at.
- **File loading and the allocator.** Reading the source file, the arena allocator, and `ALLOCATE`/`COPY` are I/O or memory management. The source is a byte sequence; the sentinel byte after it is modelled by peeking past the end.
- **Control flow.** `setjmp`/`longjmp` is modelled as a `Failed` outcome that propagates.
- **Code under `#if 0`.** Binary, hexadecimal and scientific numerals are only produced by disabled code, so their token tags are left out. So are the `binary`/`hexadecimal` branches of `parser_parse_digital`.
- **Decimal values.** `parser_parse_decimal` calls `strtod`, which is floating point. A decimal node keeps its bytes.
- **Pragma meaning.** The meaning of the `fp64` pragma (code/code_parser.c:484-491) is not modelled: the model checks the pragma's shape, not its name.
- **Unknown tokens.** An unrecognised rune is reported but does not abort tokenization (code/code_parser.c:367-372). The model follows the code, so such a token reaches the parser, which rejects it as unexpected.
- **Empty statements.** The scope keeps only non-null nodes (code/code_parser.c:765-777). The model follows the code: an empty statement adds nothing.
- **The ETX sentinel.** The end of the source is detected by the rune 3 that follows it (code/code_parser.c:124, 147-149). The model follows the code: a 0x03 byte inside the source also yields `etx`, and the parser then stops there as at the end.
- **`UNIMPLEMENTED`.** A token after a statement other than `;`, `etx` or `}` reaches `UNIMPLEMENTED()` (code/code_parser.c:798-800), which is a failed assertion followed by unreachable code (code/code.h:35), not a reported failure. The model has no abort, so it returns `Failed(Unimplemented)` there.
- **Escapes in text.** A backslash in a text literal makes the loop pass over two runes before it tests again (code/code_parser.c:283-291). So the rune after the escaped one is never compared with `"`. The model follows the code, as `LexerFacts.EscapeHidesClosingQuote` shows; escapes are not resolved, and a text node keeps its bytes.
- **Liveness on other bytes.** That a comment, literal or numeral ends (`LexerFacts.CommentEnds`, `LexerFacts.ClosedText`, `LexerFacts.NumeralEnds`) is proved for ASCII bytes from the token on. Elsewhere the decoder may reject a sequence first, and the repository's decoder is not part of this model.
- **Precedence of `.`.** It is 0 in the table (code/code_parser.c:400-463), so resolution never binds. The model keeps the code's value.
- Lexer.Tags: states only the length of the tag sequence; its content is given by its definition and used by `LexerFacts.DumpReportsTokens`.
- Parser.Bind: states progress and the shape of failures, not the node it builds; the node is stated for every input by `ParserFacts.BindBinary`, `ParserFacts.InvokeStep` and `ParserFacts.TernaryStep`.
- Nodes.Precedence, Parser.Infix, Parser.Prefix: lookup tables with no contract of their own; what they promise is stated by `ParserFacts.OperatorTable`.

=== FILE: lexer.dfy ===
/**
  The tokenizer: `parser_get_token` (code/code_parser.c:133-381) and its
  earlier revision (code/code.c:135-377), plus the token-dump driver of the
  earlier revision (code/code.c:435-438).

  The two revisions differ in two places only: the current one skips `--`
  line comments, and the earlier one tags a `"`-literal `String` instead of
  `Text`.  Every branch of the C `switch` is a small function below whose
  contract describes the bytes the token spans; `Shape` collects those facts
  per tag and is what `GetToken` promises.
 */
module Lexer {
  import opened Utf8
  import opened Tokens
  import opened Outcomes
  import opened Runes

  datatype Revision = Early | Current

  /** A token's tag and the cursor after it, or the cursor after a skipped comment. */
  datatype Scan = Scanned(tag: TokenTag, cursor: Cursor) | Restart(cursor: Cursor)

  datatype Lexed = Lexed(token: Token, cursor: Cursor)

  /** The runes with a case label of their own in the switch (code/code_parser.c:150-312). */
  const Punctuation: seq<char> := "!%&*+-/<=>^|#$(),.:;?@[\\]`{}~"

  predicate IsIdentifierStart(r: char) {
    IsLetter(r) || r == '_'
  }

  predicate IsIdentifierRune(r: char) {
    IsLetter(r) || r == '_' || r == '-' || IsDigit(r)
  }

  predicate IsNumeralRune(r: char) {
    IsDigit(r) || r == '_' || r == '.'
  }

  /** A rune no rule of the lexer claims: it becomes an `Unknown` token. */
  predicate IsUnrecognized(r: char) {
    !(r == EndOfText || r == '"' || r in Punctuation || IsIdentifierStart(r) || IsDigit(r) || IsWhitespace(r))
  }

  /** Number of `.` bytes. */
  function Dots(s: seq<byte>): nat {
    if s == [] then 0 else (if CharOf(s[0]) == '.' then 1 else 0) + Dots(s[1..])
  }

  /** The two-rune operators, as a table independent of the switch that recognises them. */
  function CompoundOf(a: char, b: char): (r: Option<TokenTag>)
    ensures r.Some? ==> IsCompound(r.value) && a in Punctuation && b in "=&|>"
  {
    match (a, b)
    case ('!', '=') => Some(ExclamationMarkEqualSign)
    case ('%', '=') => Some(PercentSignEqualSign)
    case ('&', '=') => Some(AmpersandEqualSign)
    case ('&', '&') => Some(Ampersand2)
    case ('*', '=') => Some(AsteriskEqualSign)
    case ('+', '=') => Some(PlusSignEqualSign)
    case ('-', '=') => Some(MinusSignEqualSign)
    case ('-', '>') => Some(MinusSignGreaterThanSign)
    case ('/', '=') => Some(SlashEqualSign)
    case ('<', '=') => Some(LessThanSignEqualSign)
    case ('=', '=') => Some(EqualSign2)
    case ('>', '=') => Some(GreaterThanSignEqualSign)
    case ('^', '=') => Some(CircumflexAccentEqualSign)
    case ('|', '|') => Some(VerticalBar2)
    case ('|', '=') => Some(VerticalBarEqualSign)
    case _ => None
  }

  predicate IsCompound(t: TokenTag) {
    t.ExclamationMarkEqualSign? || t.PercentSignEqualSign? || t.AmpersandEqualSign? || t.Ampersand2?
    || t.AsteriskEqualSign? || t.PlusSignEqualSign? || t.MinusSignEqualSign? || t.MinusSignGreaterThanSign?
    || t.SlashEqualSign? || t.LessThanSignEqualSign? || t.EqualSign2? || t.GreaterThanSignEqualSign?
    || t.CircumflexAccentEqualSign? || t.VerticalBar2? || t.VerticalBarEqualSign?
  }

  predicate AllIdentifierRunes(src: seq<byte>, b: nat, e: nat)
    requires b <= e <= |src|
  {
    forall k | b <= k < e :: IsIdentifierRune(CharOf(src[k]))
  }

  predicate AllNumeralRunes(src: seq<byte>, b: nat, e: nat)
    requires b <= e <= |src|
  {
    forall k | b <= k < e :: IsNumeralRune(CharOf(src[k]))
  }

  predicate AllWhitespace(src: seq<byte>, b: nat, e: nat)
    requires b <= e <= |src|
  {
    forall k | b <= k < e :: IsWhitespace(CharOf(src[k]))
  }

  /** No `\` strictly between `b` and `e`. */
  predicate EscapeFree(src: seq<byte>, b: nat, e: nat)
    requires e <= |src|
  {
    forall j | b < j < e :: src[j] != '\\' as byte
  }

  /** No `"` strictly between `b` and `e` that only unescaped bytes separate from `b`: nothing there closes a literal opened at `b`. */
  predicate NoClosingQuote(src: seq<byte>, b: nat, e: nat)
    requires e <= |src|
  {
    forall k | b < k < e :: EscapeFree(src, b, k) ==> src[k] != '"' as byte
  }

  /**
    A token starting at byte `b` whose scan never ends: a comment with no
    line feed after it (current revision), a literal that nothing closes,
    or a numeral with a second `.` and no whitespace before the end.
   */
  predicate Stuck(rev: Revision, src: seq<byte>, b: nat) {
    && b < |src|
    && (|| (rev == Current && src[b] == '-' as byte && forall k | b <= k < |src| :: src[k] != 10)
        || (src[b] == '"' as byte && NoClosingQuote(src, b, |src|))
        || (IsDigit(CharOf(src[b])) && forall k | b <= k < |src| :: !IsWhitespace(CharOf(src[k]))))
  }

  /** `<<` / `>>` without `=`: both runes, and the rune after them too when there is one. */
  predicate ShiftShape(src: seq<byte>, a: char, b: nat, e: nat)
    requires b <= e <= |src|
  {
    && b + 2 <= e
    && CharOf(src[b]) == a && CharOf(src[b + 1]) == a
    && (b + 2 < |src| ==> e > b + 2 && CharOf(src[b + 2]) != '=')
  }

  /** What the bytes `src[b..e]` of a token with tag `tag` look like; `after` is the cursor behind it. */
  predicate Shape(src: seq<byte>, tag: TokenTag, b: nat, e: nat, after: Cursor)
    requires b <= e <= |src|
  {
    match tag
    case Etx => b == e
    case Single(r) => e == b + 1 && CharOf(src[b]) == r && r in Punctuation
    case Identifier =>
      b < e && IsIdentifierStart(CharOf(src[b])) && AllIdentifierRunes(src, b, e) && !IsIdentifierRune(after.rune)
    case Digital =>
      b < e && IsDigit(CharOf(src[b])) && AllNumeralRunes(src, b, e) && Dots(src[b..e]) == 0 && !IsNumeralRune(after.rune)
    case Decimal =>
      b < e && IsDigit(CharOf(src[b])) && AllNumeralRunes(src, b, e) && Dots(src[b..e]) == 1 && !IsNumeralRune(after.rune)
    case Text => b + 2 <= e && CharOf(src[b]) == '"' && CharOf(src[e - 1]) == '"'
    case String => b + 2 <= e && CharOf(src[b]) == '"' && CharOf(src[e - 1]) == '"'
    case Unknown => b < e && Decode(src, b).Rune? && Decode(src, b).width == e - b && IsUnrecognized(Decode(src, b).point)
    case LessThanSign2 => ShiftShape(src, '<', b, e)
    case GreaterThanSign2 => ShiftShape(src, '>', b, e)
    case LessThanSign2EqualSign =>
      e == b + 3 && CharOf(src[b]) == '<' && CharOf(src[b + 1]) == '<' && CharOf(src[b + 2]) == '='
    case GreaterThanSign2EqualSign =>
      e == b + 3 && CharOf(src[b]) == '>' && CharOf(src[b + 1]) == '>' && CharOf(src[b + 2]) == '='
    case _ => IsCompound(tag) && e == b + 2 && CompoundOf(CharOf(src[b]), CharOf(src[b + 1])) == Some(tag)
  }

  /** A one-byte rune under the cursor is the byte itself. */
  lemma Ascii(src: seq<byte>, c: Cursor)
    requires Wf(src, c) && c.rune != EndOfText && (c.rune as int) < 0x80
    ensures c.position < |src| && c.increment == 1 && CharOf(src[c.position]) == c.rune
  {
  }

  /** The first byte of the rune under the cursor is the rune itself, or not ASCII. */
  lemma LeadByte(src: seq<byte>, c: Cursor)
    requires Wf(src, c)
    ensures c.position < |src| && (c.rune as int) >= 0x80 ==> src[c.position] >= 0x80
    ensures c.position < |src| && (c.rune as int) < 0x80 ==> CharOf(src[c.position]) == c.rune
  {
  }

  lemma {:induction false} DotsSplit(src: seq<byte>, b: nat, e: nat)
    requires b < e <= |src|
    ensures Dots(src[b..e]) == (if CharOf(src[b]) == '.' then 1 else 0) + Dots(src[b + 1..e])
  {
    assert src[b..e][1..] == src[b + 1..e];
  }

  /** Skips whitespace runes (code/code_parser.c:136). */
  function SkipWhitespace(src: seq<byte>, c: Cursor): (r: Outcome<Cursor>)
    requires Wf(src, c)
    ensures !r.Hangs?
    ensures r.Failed? ==> r.failure.UnknownRune?
    ensures r.Done? ==> Wf(src, r.value) && c.position <= r.value.position
    ensures r.Done? ==> !IsWhitespace(r.value.rune) && AllWhitespace(src, c.position, r.value.position)
    decreases |src| - c.position
    ensures AsciiFrom(src, c.position) ==> !r.Failed?
  {
    if IsWhitespace(c.rune) then
      Ascii(src, c);
      var next :- Advance(src, c);
      SkipWhitespace(src, next)
    else
      Done(c)
  }

  /** Continues an identifier over letters, digits, `_` and `-` (code/code_parser.c:326-327). */
  function IdentifierTail(src: seq<byte>, c: Cursor): (r: Outcome<Cursor>)
    requires Wf(src, c)
    ensures !r.Hangs?
    ensures r.Failed? ==> r.failure.UnknownRune?
    ensures r.Done? ==> Wf(src, r.value) && c.position <= r.value.position
    ensures r.Done? ==> !IsIdentifierRune(r.value.rune) && AllIdentifierRunes(src, c.position, r.value.position)
    decreases |src| - c.position
    ensures AsciiFrom(src, c.position) ==> !r.Failed?
  {
    if IsIdentifierRune(c.rune) then
      Ascii(src, c);
      var next :- Advance(src, c);
      IdentifierTail(src, next)
    else
      Done(c)
  }

  /** After a second `.`: skips to the next whitespace before failing (code/code_parser.c:357). */
  function SkipToWhitespace(src: seq<byte>, c: Cursor): (r: Outcome<Cursor>)
    requires Wf(src, c)
    ensures r.Failed? ==> r.failure.UnknownRune?
    ensures r.Done? ==> IsWhitespace(r.value.rune)
    ensures r.Hangs? ==> forall k | c.position <= k < |src| :: !IsWhitespace(CharOf(src[k]))
    ensures AsciiFrom(src, c.position) ==> !r.Failed?
    decreases |src| - c.position
  {
    if IsWhitespace(c.rune) then Done(c)
    else if AtEnd(src, c) then Hangs
    else
      var next :- Advance(src, c);
      LeadByte(src, c);
      Continuation(src, c);
      SkipToWhitespace(src, next)
  }

  /**
    The numeral loop (code/code_parser.c:346-365): digits, `_` and `.`; the
    first `.` makes the numeral `Decimal`, a second one is fatal.  `start` is
    where the token begins, which the failure report points at.
   */
  function NumeralTail(src: seq<byte>, start: Cursor, c: Cursor, tag: TokenTag): (r: Outcome<Scan>)
    requires Wf(src, c) && (tag == Digital || tag == Decimal)
    ensures r.Failed? ==> r.failure.UnknownRune? || r.failure == MalformedNumeral(start.position, start.row, start.column)
    ensures r.Done? ==> r.value.Scanned? && Wf(src, r.value.cursor) && c.position <= r.value.cursor.position
    ensures r.Done? ==> (r.value.tag == Digital || r.value.tag == Decimal)
    ensures r.Done? ==> !IsNumeralRune(r.value.cursor.rune) && AllNumeralRunes(src, c.position, r.value.cursor.position)
    ensures r.Done? ==> Dots(src[c.position..r.value.cursor.position]) + (if tag == Decimal then 1 else 0)
                        == (if r.value.tag == Decimal then 1 else 0)
    decreases |src| - c.position
  {
    if IsNumeralRune(c.rune) then
      Ascii(src, c);
      if c.rune == '.' && tag == Decimal then
        var _ :- SkipToWhitespace(src, c);
        Failed(MalformedNumeral(start.position, start.row, start.column))
      else
        var next :- Advance(src, c);
        var r := NumeralTail(src, start, next, if c.rune == '.' then Decimal else tag);
        if r.Done? then
          DotsSplit(src, c.position, r.value.cursor.position);
          r
        else r
    else
      assert src[c.position..c.position] == [];
      Done(Scanned(tag, c))
  }

  /**
    Where the numeral loop hangs: only in the skip after a second `.`, so
    never when whitespace follows before the end; and it reports an unknown
    rune only where the source is not ASCII.
   */
  lemma {:induction false} NumeralTailHangs(src: seq<byte>, start: Cursor, c: Cursor, tag: TokenTag)
    requires Wf(src, c) && (tag == Digital || tag == Decimal)
    ensures NumeralTail(src, start, c, tag).Hangs? ==> forall k | c.position <= k < |src| :: !IsWhitespace(CharOf(src[k]))
    ensures AsciiFrom(src, c.position) ==> !(NumeralTail(src, start, c, tag).Failed? && NumeralTail(src, start, c, tag).failure.UnknownRune?)
    decreases |src| - c.position
  {
    if IsNumeralRune(c.rune) {
      Ascii(src, c);
      if !(c.rune == '.' && tag == Decimal) {
        var next := Advance(src, c);
        if next.Done? {
          NumeralTailHangs(src, start, next.value, if c.rune == '.' then Decimal else tag);
        }
      }
    }
  }

  /** The rest of a `--` comment, up to the line feed (code/code_parser.c:203-204). */
  function CommentTail(src: seq<byte>, c: Cursor): (r: Outcome<Cursor>)
    requires Wf(src, c)
    ensures r.Failed? ==> r.failure.UnknownRune?
    ensures r.Done? ==> Wf(src, r.value) && c.position <= r.value.position && r.value.rune == '\n'
    ensures r.Done? ==> forall k | c.position <= k < r.value.position :: src[k] != 10
    ensures r.Hangs? ==> forall k | c.position <= k < |src| :: src[k] != 10
    ensures AsciiFrom(src, c.position) ==> !r.Failed?
    decreases |src| - c.position
  {
    if c.rune == '\n' then Done(c)
    else if AtEnd(src, c) then Hangs
    else
      var next :- Advance(src, c);
      NotInRune(src, c, 10);
      CommentTail(src, next)
  }

  /**
    The body of a text literal (code/code_parser.c:279-292): moves first, stops
    on `"`, and after `\` moves twice more, so the rune after the escaped one
    is never tested.  Without a `\` in between, the first `"` ends it.
   */
  function TextBody(src: seq<byte>, c: Cursor): (r: Outcome<Cursor>)
    requires Wf(src, c)
    ensures r.Failed? ==> r.failure.UnknownRune?
    ensures r.Done? ==> Wf(src, r.value) && c.position < r.value.position && r.value.rune == '"'
    ensures r.Done? && (forall k | c.position < k < r.value.position :: src[k] != '\\' as byte) ==>
      forall k | c.position < k < r.value.position :: src[k] != '"' as byte
    decreases |src| - c.position
  {
    if AtEnd(src, c) then Hangs
    else
      var next :- Advance(src, c);
      Continuation(src, c);
      if next.rune == '"' then Done(next)
      else if next.rune == '\\' then
        Ascii(src, next);
        var escaped :- Advance(src, next);
        var after :- Advance(src, escaped);
        TextBody(src, after)
      else
        NotInRune(src, next, '"' as byte);
        NotInRune(src, next, '\\' as byte);
        TextBody(src, next)
  }

  /** What the literal scan leaves behind: no `"` that could have closed the literal lies before the one it stops at, or anywhere when it hangs; and it only fails where the source is not ASCII. */
  lemma {:induction false} TextBodyQuotes(src: seq<byte>, c: Cursor)
    requires Wf(src, c)
    ensures TextBody(src, c).Done? ==> NoClosingQuote(src, c.position, TextBody(src, c).value.position)
    ensures TextBody(src, c).Hangs? ==> NoClosingQuote(src, c.position, |src|)
    ensures AsciiFrom(src, c.position) ==> !TextBody(src, c).Failed?
    decreases |src| - c.position
  {
    if !AtEnd(src, c) {
      var next := Advance(src, c);
      if next.Done? {
        Continuation(src, c);
        var n := next.value;
        if n.rune == '\\' {
          Ascii(src, n);
          var escaped := Advance(src, n);
          if escaped.Done? {
            var after := Advance(src, escaped.value);
            if after.Done? {
              TextBodyQuotes(src, after.value);
              var r := TextBody(src, after.value);
              assert TextBody(src, c) == r;
              EscapeCloses(src, c.position, n.position, |src|);
              if r.Done? {
                EscapeCloses(src, c.position, n.position, r.value.position);
              }
            }
          }
        } else if n.rune != '"' {
          NotInRune(src, n, '"' as byte);
          NotInRune(src, n, '\\' as byte);
          TextBodyQuotes(src, n);
          var r := TextBody(src, n);
          assert TextBody(src, c) == r;
          if r.Hangs? {
            QuoteShift(src, c.position, n.position, |src|);
          } else if r.Done? {
            QuoteShift(src, c.position, n.position, r.value.position);
          }
        }
      }
    }
  }

  /** Bytes before `m` that are not `"` extend a stretch without a closing quote from `m` back to `b`. */
  lemma QuoteShift(src: seq<byte>, b: nat, m: nat, e: nat)
    requires b <= m <= e <= |src|
    requires forall k | b < k < e && k <= m :: src[k] != '"' as byte
    requires NoClosingQuote(src, m, e)
    ensures NoClosingQuote(src, b, e)
  {
    forall k | b < k < e && EscapeFree(src, b, k)
      ensures src[k] != '"' as byte
    {
      if k > m {
        assert EscapeFree(src, m, k);
      }
    }
  }

  /** After a `\` at `n`, with no `"` before it, nothing can close the literal opened at `b`. */
  lemma EscapeCloses(src: seq<byte>, b: nat, n: nat, e: nat)
    requires b < n < |src| && e <= |src| && src[n] == '\\' as byte
    requires forall k | b < k < n :: src[k] != '"' as byte
    ensures NoClosingQuote(src, b, e)
  {
    forall k | b < k < e
      ensures EscapeFree(src, b, k) ==> src[k] != '"' as byte
    {
      if n < k {
        assert src[n] == '\\' as byte;
      }
    }
  }

  /** The bytes of a rune after its first are continuation bytes. */
  lemma Continuation(src: seq<byte>, c: Cursor)
    requires Wf(src, c) && !AtEnd(src, c)
    ensures forall k | c.position < k < c.position + c.increment :: src[k] >= 0x80
  {
    assert Decode(src, c.position) == Rune(c.rune, c.increment);
  }

  /** A one-byte character other than the rune under the cursor is none of the rune's bytes. */
  lemma NotInRune(src: seq<byte>, c: Cursor, b: byte)
    requires Wf(src, c) && b < 0x80 && c.rune != CharOf(b)
    ensures forall k | c.position <= k < c.position + c.increment :: src[k] != b
  {
    if !AtEnd(src, c) {
      assert Decode(src, c.position) == Rune(c.rune, c.increment);
    }
  }

  /**
    The switch arms for the punctuation runes other than `<<`, `>>`, `"` and
    `--`: the tag, and whether the peeked rune belongs to the token
    (code/code_parser.c:150-277, 296-315).
   */
  function Operator(a: char, b: char): (r: (TokenTag, nat))
    ensures CompoundOf(a, b).Some? ==> r == (CompoundOf(a, b).value, 2)
    ensures CompoundOf(a, b).None? ==> r == (Single(a), 1)
  {
    match a
    case '!' => if b == '=' then (ExclamationMarkEqualSign, 2) else (Single(a), 1)
    case '%' => if b == '=' then (PercentSignEqualSign, 2) else (Single(a), 1)
    case '&' =>
      if b == '=' then (AmpersandEqualSign, 2)
      else if b == '&' then (Ampersand2, 2)
      else (Single(a), 1)
    case '*' => if b == '=' then (AsteriskEqualSign, 2) else (Single(a), 1)
    case '+' => if b == '=' then (PlusSignEqualSign, 2) else (Single(a), 1)
    case '-' =>
      if b == '=' then (MinusSignEqualSign, 2)
      else if b == '>' then (MinusSignGreaterThanSign, 2)
      else (Single(a), 1)
    case '/' => if b == '=' then (SlashEqualSign, 2) else (Single(a), 1)
    case '<' => if b == '=' then (LessThanSignEqualSign, 2) else (Single(a), 1)
    case '=' => if b == '=' then (EqualSign2, 2) else (Single(a), 1)
    case '>' => if b == '=' then (GreaterThanSignEqualSign, 2) else (Single(a), 1)
    case '^' => if b == '=' then (CircumflexAccentEqualSign, 2) else (Single(a), 1)
    case '|' =>
      if b == '|' then (VerticalBar2, 2)
      else if b == '=' then (VerticalBarEqualSign, 2)
      else (Single(a), 1)
    case _ => (Single(a), 1)
  }

  /** The bytes of a two-rune operator are the two runes of the table entry. */
  lemma CompoundShape(src: seq<byte>, b: nat, tag: TokenTag, after: Cursor)
    requires b + 2 <= |src| && CompoundOf(CharOf(src[b]), CharOf(src[b + 1])) == Some(tag)
    ensures Shape(src, tag, b, b + 2, after)
  {
  }

  /** A punctuation or operator token of one or two runes (code/code_parser.c:150-277, 296-321). */
  function OperatorToken(src: seq<byte>, c: Cursor, p: Peeked): (r: Outcome<Scan>)
    requires Wf(src, c) && c.rune in Punctuation && Peek(src, c) == Done(p)
    requires !(c.rune == '<' && p.rune == '<') && !(c.rune == '>' && p.rune == '>')
    ensures !r.Hangs?
    ensures r.Failed? ==> r.failure.UnknownRune?
    ensures r.Done? ==> r.value.Scanned? && Wf(src, r.value.cursor) && c.position < r.value.cursor.position <= |src|
    ensures r.Done? ==> Shape(src, r.value.tag, c.position, r.value.cursor.position, r.value.cursor)
    ensures r.Done? ==> r.value.tag == Operator(c.rune, p.rune).0
                        && r.value.cursor.position == c.position + Operator(c.rune, p.rune).1
    ensures AsciiFrom(src, c.position) ==> !r.Failed?
  {
    var (tag, runes) := Operator(c.rune, p.rune);
    Ascii(src, c);
    match Advance(src, c)
    case Failed(f) => Failed(f)
    case Hangs => Hangs
    case Done(once) =>
      if runes == 2 then
        Ascii(src, once);
        var twice :- Advance(src, once);
        CompoundShape(src, c.position, tag, twice);
        Done(Scanned(tag, twice))
      else
        Done(Scanned(tag, once))
  }

  /**
    `<<` and `>>` (code/code_parser.c:215-226, 240-252): after the second rune
    the lexer peeks once more for `=`, and in either case advances twice, so
    the rune after `<<` belongs to the token even when it is not `=`.
   */
  function ShiftToken(src: seq<byte>, c: Cursor, plain: TokenTag, assigning: TokenTag): (r: Outcome<Scan>)
    requires Wf(src, c) && (c.rune == '<' || c.rune == '>')
    requires Peek(src, c).Done? && Peek(src, c).value.rune == c.rune
    requires plain == (if c.rune == '<' then LessThanSign2 else GreaterThanSign2)
    requires assigning == (if c.rune == '<' then LessThanSign2EqualSign else GreaterThanSign2EqualSign)
    ensures !r.Hangs?
    ensures r.Failed? ==> r.failure.UnknownRune?
    ensures r.Done? ==> r.value.Scanned? && Wf(src, r.value.cursor) && c.position < r.value.cursor.position <= |src|
    ensures r.Done? ==> Shape(src, r.value.tag, c.position, r.value.cursor.position, r.value.cursor)
    ensures r.Done? ==> r.value.tag == plain || r.value.tag == assigning
    ensures r.Done? ==> (r.value.tag == assigning <==> c.position + 2 < |src| && src[c.position + 2] == '=' as byte)
    ensures AsciiFrom(src, c.position) ==> !r.Failed?
  {
    Ascii(src, c);
    match Advance(src, c)
    case Failed(f) => Failed(f)
    case Hangs => Hangs
    case Done(second) => ShiftRest(src, c, second, plain, assigning)
  }

  /** The shift token once its second rune is under the cursor: peek for `=`, then advance twice. */
  function ShiftRest(src: seq<byte>, c: Cursor, second: Cursor, plain: TokenTag, assigning: TokenTag): (r: Outcome<Scan>)
    requires Wf(src, c) && (c.rune == '<' || c.rune == '>') && c.increment == 1
    requires plain == (if c.rune == '<' then LessThanSign2 else GreaterThanSign2)
    requires assigning == (if c.rune == '<' then LessThanSign2EqualSign else GreaterThanSign2EqualSign)
    requires Advance(src, c) == Done(second) && second.rune == c.rune
    ensures !r.Hangs?
    ensures r.Failed? ==> r.failure.UnknownRune?
    ensures r.Done? ==> r.value.Scanned? && Wf(src, r.value.cursor) && c.position < r.value.cursor.position <= |src|
    ensures r.Done? ==> Shape(src, r.value.tag, c.position, r.value.cursor.position, r.value.cursor)
    ensures r.Done? ==> r.value.tag == plain || r.value.tag == assigning
    ensures r.Done? ==> (r.value.tag == assigning <==> c.position + 2 < |src| && src[c.position + 2] == '=' as byte)
    ensures AsciiFrom(src, c.position) ==> !r.Failed?
  {
    Ascii(src, second);
    var p :- Peek(src, second);
    var tag := if p.rune == '=' then assigning else plain;
    match Advance(src, second)
    case Failed(f) => Failed(f)
    case Hangs => Hangs
    case Done(third) =>
      var fourth :- Advance(src, third);
      ShiftDone(src, c, second, p, third, fourth, plain, assigning, tag);
      Done(Scanned(tag, fourth))
  }

  /** The cursor and the bytes behind a completed shift token. */
  lemma ShiftDone(src: seq<byte>, c: Cursor, second: Cursor, p: Peeked, third: Cursor, fourth: Cursor,
                  plain: TokenTag, assigning: TokenTag, tag: TokenTag)
    requires Wf(src, c) && (c.rune == '<' || c.rune == '>') && c.increment == 1
    requires plain == (if c.rune == '<' then LessThanSign2 else GreaterThanSign2)
    requires assigning == (if c.rune == '<' then LessThanSign2EqualSign else GreaterThanSign2EqualSign)
    requires Advance(src, c) == Done(second) && second.rune == c.rune && second.increment == 1
    requires Peek(src, second) == Done(p) && tag == (if p.rune == '=' then assigning else plain)
    requires Advance(src, second) == Done(third) && Advance(src, third) == Done(fourth)
    ensures Wf(src, fourth) && c.position < fourth.position <= |src|
    ensures Shape(src, tag, c.position, fourth.position, fourth)
    ensures tag == assigning <==> c.position + 2 < |src| && src[c.position + 2] == '=' as byte
  {
    Ascii(src, c);
    Ascii(src, second);
    LeadByte(src, third);
    ShiftBytes(src, c.position, fourth.position, plain, assigning, tag, fourth);
  }

  /** The bytes of a shift token: the doubled rune, then `=` exactly for the assigning form. */
  lemma ShiftBytes(src: seq<byte>, b: nat, e: nat, plain: TokenTag, assigning: TokenTag, tag: TokenTag, after: Cursor)
    requires b + 2 <= e <= |src|
    requires CharOf(src[b]) == CharOf(src[b + 1]) && (CharOf(src[b]) == '<' || CharOf(src[b]) == '>')
    requires plain == (if CharOf(src[b]) == '<' then LessThanSign2 else GreaterThanSign2)
    requires assigning == (if CharOf(src[b]) == '<' then LessThanSign2EqualSign else GreaterThanSign2EqualSign)
    requires tag == (if b + 2 < |src| && src[b + 2] == '=' as byte then assigning else plain)
    requires b + 2 < |src| ==> b + 2 < e
    requires tag == assigning ==> e == b + 3
    ensures Shape(src, tag, b, e, after)
  {
  }

  /** A `"`-delimited literal (code/code_parser.c:278-295; code/code.c:274-291). */
  function TextToken(rev: Revision, src: seq<byte>, c: Cursor): (r: Outcome<Scan>)
    requires Wf(src, c) && c.rune == '"'
    ensures r.Failed? ==> r.failure.UnknownRune?
    ensures r.Done? ==> r.value.Scanned? && Wf(src, r.value.cursor) && c.position < r.value.cursor.position <= |src|
    ensures r.Done? ==> r.value.tag == (if rev == Current then Text else String)
    ensures r.Done? ==> Shape(src, r.value.tag, c.position, r.value.cursor.position, r.value.cursor)
    ensures r.Done? && (forall k | c.position < k < r.value.cursor.position - 1 :: src[k] != '\\' as byte) ==>
      forall k | c.position < k < r.value.cursor.position - 1 :: src[k] != '"' as byte
  {
    Ascii(src, c);
    var closing :- TextBody(src, c);
    Ascii(src, closing);
    var after :- Advance(src, closing);
    Done(Scanned(if rev == Current then Text else String, after))
  }

  /** A literal ends at the first `"` that only unescaped bytes separate from its opening quote; with none, the scan hangs; and it fails only where the source is not ASCII. */
  lemma TextTokenQuotes(rev: Revision, src: seq<byte>, c: Cursor)
    requires Wf(src, c) && c.rune == '"'
    ensures TextToken(rev, src, c).Done? ==> NoClosingQuote(src, c.position, TextToken(rev, src, c).value.cursor.position - 1)
    ensures TextToken(rev, src, c).Hangs? ==> NoClosingQuote(src, c.position, |src|)
    ensures AsciiFrom(src, c.position) ==> !TextToken(rev, src, c).Failed?
  {
    Ascii(src, c);
    TextBodyQuotes(src, c);
    var body := TextBody(src, c);
    if body.Done? {
      var closing := body.value;
      Ascii(src, closing);
      var after := Advance(src, closing);
      if after.Done? {
        assert after.value.position == closing.position + 1;
      }
    }
  }

  /** An identifier: a letter or `_`, then the identifier runes (code/code_parser.c:324-329). */
  function IdentifierToken(src: seq<byte>, c: Cursor): (r: Outcome<Scan>)
    requires Wf(src, c) && IsIdentifierStart(c.rune)
    ensures !r.Hangs?
    ensures r.Failed? ==> r.failure.UnknownRune?
    ensures r.Done? ==> r.value.Scanned? && r.value.tag == Identifier && Wf(src, r.value.cursor)
    ensures r.Done? ==> c.position < r.value.cursor.position <= |src|
    ensures r.Done? ==> Shape(src, Identifier, c.position, r.value.cursor.position, r.value.cursor)
    ensures AsciiFrom(src, c.position) ==> !r.Failed?
  {
    Ascii(src, c);
    var next :- Advance(src, c);
    var last :- IdentifierTail(src, next);
    Done(Scanned(Identifier, last))
  }

  /** A numeral: `Digital`, or `Decimal` once a `.` is seen (code/code_parser.c:330-366). */
  function NumeralToken(src: seq<byte>, c: Cursor): (r: Outcome<Scan>)
    requires Wf(src, c) && IsDigit(c.rune)
    ensures r.Failed? ==> r.failure.UnknownRune? || r.failure == MalformedNumeral(c.position, c.row, c.column)
    ensures r.Done? ==> r.value.Scanned? && Wf(src, r.value.cursor) && c.position < r.value.cursor.position <= |src|
    ensures r.Done? ==> (r.value.tag == Digital || r.value.tag == Decimal)
    ensures r.Done? ==> Shape(src, r.value.tag, c.position, r.value.cursor.position, r.value.cursor)
    ensures r.Hangs? ==> forall k | c.position <= k < |src| :: !IsWhitespace(CharOf(src[k]))
    ensures AsciiFrom(src, c.position) ==> !(r.Failed? && r.failure.UnknownRune?)
  {
    Ascii(src, c);
    NumeralTailHangs(src, c, c, Digital);
    NumeralTail(src, c, c, Digital)
  }

  /** Any other rune: an `Unknown` token one rune wide; reported, but not fatal (code/code_parser.c:367-372). */
  function UnknownToken(src: seq<byte>, c: Cursor): (r: Outcome<Scan>)
    requires Wf(src, c) && IsUnrecognized(c.rune)
    ensures !r.Hangs?
    ensures r.Failed? ==> r.failure.UnknownRune?
    ensures r.Done? ==> r.value == Scanned(Unknown, r.value.cursor) && Wf(src, r.value.cursor)
    ensures r.Done? ==> c.position < r.value.cursor.position <= |src|
    ensures r.Done? ==> Shape(src, Unknown, c.position, r.value.cursor.position, r.value.cursor)
    ensures AsciiFrom(src, c.position) ==> !r.Failed?
  {
    var next :- Advance(src, c);
    Done(Scanned(Unknown, next))
  }

  /** The `switch (parser->rune)` of `parser_get_token`, after whitespace and the peek. */
  function Classify(rev: Revision, src: seq<byte>, c: Cursor, p: Peeked): (r: Outcome<Scan>)
    requires Wf(src, c) && !IsWhitespace(c.rune) && Peek(src, c) == Done(p)
    ensures r.Failed? ==> r.failure.UnknownRune? || r.failure.MalformedNumeral?
    ensures r.Done? ==> Wf(src, r.value.cursor) && c.position <= r.value.cursor.position <= |src|
    ensures r.Done? && r.value.Restart? ==> rev == Current && c.position < r.value.cursor.position
    ensures r.Done? && r.value.Scanned? ==> Shape(src, r.value.tag, c.position, r.value.cursor.position, r.value.cursor)
    ensures r.Done? && r.value.Scanned? && r.value.tag == Etx ==> r.value.cursor == c && c.rune == EndOfText
    ensures c.rune == EndOfText ==> r == Done(Scanned(Etx, c))
    ensures r.Done? && r.value.Scanned? && r.value.tag != Etx ==> c.position < r.value.cursor.position
  {
    var a := c.rune;
    if a == EndOfText then
      Done(Scanned(Etx, c))
    else if a == '-' && p.rune == '-' && rev == Current then
      match Advance(src, c)
      case Failed(f) => Failed(f)
      case Hangs => Hangs
      case Done(second) =>
        var newline :- CommentTail(src, second);
        Done(Restart(newline))
    else if a == '<' && p.rune == '<' then
      ShiftToken(src, c, LessThanSign2, LessThanSign2EqualSign)
    else if a == '>' && p.rune == '>' then
      ShiftToken(src, c, GreaterThanSign2, GreaterThanSign2EqualSign)
    else if a == '"' then
      TextToken(rev, src, c)
    else if a in Punctuation then
      OperatorToken(src, c, p)
    else if IsIdentifierStart(a) then
      IdentifierToken(src, c)
    else if IsDigit(a) then
      NumeralToken(src, c)
    else
      UnknownToken(src, c)
  }

  /** A token scan hangs only on a comment with no LF after it, a literal nothing closes, or a numeral with no whitespace after it; on ASCII input it never meets an unknown rune. */
  lemma ClassifyHangs(rev: Revision, src: seq<byte>, c: Cursor, p: Peeked)
    requires Wf(src, c) && !IsWhitespace(c.rune) && Peek(src, c) == Done(p)
    ensures Classify(rev, src, c, p).Hangs? ==> Stuck(rev, src, c.position)
    ensures AsciiFrom(src, c.position) ==> !(Classify(rev, src, c, p).Failed? && Classify(rev, src, c, p).failure.UnknownRune?)
  {
    var a := c.rune;
    if a == EndOfText {
    } else if a == '-' && p.rune == '-' && rev == Current {
      Ascii(src, c);
      var second := Advance(src, c);
      if second.Done? {
        assert second.value.position == c.position + 1;
      }
    } else if a == '<' && p.rune == '<' {
    } else if a == '>' && p.rune == '>' {
    } else if a == '"' {
      Ascii(src, c);
      TextTokenQuotes(rev, src, c);
    } else if a in Punctuation {
    } else if IsIdentifierStart(a) {
    } else if IsDigit(a) {
      Ascii(src, c);
    }
  }

  /**
    `parser_get_token`: skip whitespace, note where the token begins, peek,
    classify; a comment restarts the scan (current revision only).
   */
  function GetToken(rev: Revision, src: seq<byte>, c: Cursor): (r: Outcome<Lexed>)
    requires Wf(src, c)
    ensures r.Failed? ==> r.failure.UnknownRune? || r.failure.MalformedNumeral?
    ensures r.Done? ==> var t := r.value.token;
      && Wf(src, r.value.cursor)
      && c.position <= t.beginning <= t.ending == r.value.cursor.position <= |src|
      && t.row == 1 + Newlines(src[..t.beginning]) && t.column >= 1
      && (t.beginning < |src| ==> t.column == Column(src, t.beginning))
      && Shape(src, t.tag, t.beginning, t.ending, r.value.cursor)
      && (t.beginning < |src| ==> !IsWhitespace(CharOf(src[t.beginning])))
      && (t.tag != Etx ==> c.position < t.ending)
      && (t.tag == Etx ==> r.value.cursor.rune == EndOfText && Peek(src, r.value.cursor).Done?
                           && t.row == r.value.cursor.row
                           && t.column == r.value.cursor.column)
    ensures r.Done? && rev == Early ==> AllWhitespace(src, c.position, r.value.token.beginning)
    decreases |src| - c.position
  {
    var start :- SkipWhitespace(src, c);
    var p :- Peek(src, start);
    var scan :- Classify(rev, src, start, p);
    LeadByte(src, start);
    match scan
    case Restart(next) => GetToken(rev, src, next)
    case Scanned(tag, next) =>
      Done(Lexed(Token(tag, start.position, next.position, start.row, start.column), next))
  }

  /**
    Where `parser_get_token` hangs: some token from the cursor on is stuck
    (a comment, literal or numeral that never ends); on ASCII input the only
    failure left is a malformed numeral.
   */
  lemma {:induction false} GetTokenHangs(rev: Revision, src: seq<byte>, c: Cursor)
    requires Wf(src, c)
    ensures GetToken(rev, src, c).Hangs? ==> exists b | c.position <= b < |src| :: Stuck(rev, src, b)
    ensures AsciiFrom(src, c.position) ==> !(GetToken(rev, src, c).Failed? && GetToken(rev, src, c).failure.UnknownRune?)
    decreases |src| - c.position
  {
    var start := SkipWhitespace(src, c);
    if start.Done? {
      var p := Peek(src, start.value);
      if p.Done? {
        ClassifyHangs(rev, src, start.value, p.value);
        var scan := Classify(rev, src, start.value, p.value);
        if scan.Done? && scan.value.Restart? {
          GetTokenHangs(rev, src, scan.value.cursor);
        }
      }
    }
  }

  /** How the stream of tokens stops: at the end of the source, at a failure, or in a loop that never exits. */
  datatype Halt = EndsAtEtx | Breaks(failure: Failure) | Stalls

  /**
    Everything a parse can pull from the lexer, in order: the tokens
    `parser_get_token` returns, and how the next call after the last one
    behaves.  After `EndsAtEtx` the last token is the `Etx` token, and every
    further call returns it again.
   */
  datatype TokenStream = TokenStream(tokens: seq<Token>, halt: Halt)

  predicate Ordered(tokens: seq<Token>) {
    forall k | 0 <= k < |tokens| - 1 :: tokens[k].ending <= tokens[k + 1].beginning
  }

  predicate SpansWithin(tokens: seq<Token>, size: nat) {
    forall k | 0 <= k < |tokens| :: tokens[k].beginning <= tokens[k].ending <= size
  }

  /** What a stream of tokens read from position `from` on promises. */
  predicate StreamFrom(s: TokenStream, size: nat, from: nat) {
    && (s.halt.EndsAtEtx? ==> |s.tokens| > 0 && s.tokens[|s.tokens| - 1].tag == Etx)
    && (forall k | 0 <= k < |s.tokens| - 1 :: s.tokens[k].tag != Etx)
    && (!s.halt.EndsAtEtx? ==> forall k | 0 <= k < |s.tokens| :: s.tokens[k].tag != Etx)
    && SpansWithin(s.tokens, size) && Ordered(s.tokens)
    && (forall k | 0 <= k < |s.tokens| :: from <= s.tokens[k].beginning)
  }

  /** A token before a stream that starts where it ends. */
  lemma ConsStream(t: Token, rest: TokenStream, size: nat, from: nat)
    requires from <= t.beginning <= t.ending <= size && t.tag != Etx
    requires StreamFrom(rest, size, t.ending)
    ensures StreamFrom(TokenStream([t] + rest.tokens, rest.halt), size, from)
  {
    var tokens := [t] + rest.tokens;
    assert forall k | 1 <= k < |tokens| :: tokens[k] == rest.tokens[k - 1];
  }

  /** Calls `parser_get_token` from `c` until the end-of-source token. */
  function TokenizeFrom(rev: Revision, src: seq<byte>, c: Cursor): (s: TokenStream)
    requires Wf(src, c)
    ensures StreamFrom(s, |src|, c.position)
    decreases |src| - c.position
  {
    match GetToken(rev, src, c)
    case Failed(f) => TokenStream([], Breaks(f))
    case Hangs => TokenStream([], Stalls)
    case Done(Lexed(t, next)) =>
      if t.tag == Etx then TokenStream([t], EndsAtEtx)
      else
        var rest := TokenizeFrom(rev, src, next);
        ConsStream(t, rest, |src|, c.position);
        TokenStream([t] + rest.tokens, rest.halt)
  }

  /** Loads the source and tokenizes all of it. */
  function Tokenize(rev: Revision, src: seq<byte>): (s: TokenStream)
    ensures StreamFrom(s, |src|, 0)
  {
    var loaded := Load(src);
    if loaded.Done? then TokenizeFrom(rev, src, loaded.value)
    else TokenStream([], Breaks(loaded.failure))
  }

  /** The verbose reports of the token-dump loop, and how the loop ended. */
  datatype Dumped = Dumped(reports: seq<TokenTag>, halt: Halt)

  /**
    The driver of the earlier revision (code/code.c:435-438): calls
    `parser_get_token` until it returns `etx`, reporting the tag of every
    token before it.
   */
  function DumpFrom(src: seq<byte>, c: Cursor): (d: Dumped)
    requires Wf(src, c)
    ensures Etx !in d.reports
    decreases |src| - c.position
  {
    match GetToken(Early, src, c)
    case Failed(f) => Dumped([], Breaks(f))
    case Hangs => Dumped([], Stalls)
    case Done(Lexed(t, next)) =>
      if t.tag == Etx then Dumped([], EndsAtEtx)
      else
        var rest := DumpFrom(src, next);
        Dumped([t.tag] + rest.reports, rest.halt)
  }

  /** `parser_parse` of the earlier revision: load, then dump. */
  function Dump(src: seq<byte>): (d: Dumped)
    ensures Etx !in d.reports
  {
    var loaded := Load(src);
    if loaded.Done? then DumpFrom(src, loaded.value) else Dumped([], Breaks(loaded.failure))
  }

  /** The tags of a token sequence. */
  function Tags(tokens: seq<Token>): (tags: seq<TokenTag>)
    ensures |tags| == |tokens|
  {
    if tokens == [] then [] else [tokens[0].tag] + Tags(tokens[1..])
  }
}

=== FILE: lexer_facts.dfy ===
/**
  Properties of the tokenizer that relate several calls, or relate the
  switch to the independent operator table.
 */
module LexerFacts {
  import opened Utf8
  import opened Tokens
  import opened Outcomes
  import opened Runes
  import opened Lexer

  /**
    Maximal munch: when the rune under the cursor and the next one form an
    entry of the operator table, the token is that entry, two runes wide, in
    both revisions (code/code_parser.c:150-277; code/code.c:152-273).
   */
  lemma MaximalMunch(rev: Revision, src: seq<byte>, c: Cursor, p: Peeked, t: TokenTag)
    requires Wf(src, c) && Peek(src, c) == Done(p) && CompoundOf(c.rune, p.rune) == Some(t)
    ensures Classify(rev, src, c, p).Done? ==>
      Classify(rev, src, c, p).value == Scanned(t, Classify(rev, src, c, p).value.cursor)
      && Classify(rev, src, c, p).value.cursor.position == c.position + 2
  {
    assert c.rune != EndOfText && c.rune != '"';
    assert Classify(rev, src, c, p) == OperatorToken(src, c, p);
  }

  /**
    `<<` and `>>` are one token in both revisions: with the `=` that follows
    they are the assigning shift, and otherwise the plain shift, which still
    takes the third rune into the token (code/code_parser.c:215-226, 240-252;
    code/code.c:211-222, 236-248).
   */
  lemma ShiftPair(rev: Revision, src: seq<byte>, c: Cursor, p: Peeked)
    requires Wf(src, c) && Peek(src, c) == Done(p) && (c.rune == '<' || c.rune == '>') && p.rune == c.rune
    ensures var r := Classify(rev, src, c, p);
      var assigning := c.position + 2 < |src| && src[c.position + 2] == '=' as byte;
      r.Done? ==> (
        && r.value.Scanned?
        && r.value.tag == (if c.rune == '<' then (if assigning then LessThanSign2EqualSign else LessThanSign2)
                           else (if assigning then GreaterThanSign2EqualSign else GreaterThanSign2))
        && (c.position + 2 < |src| ==> c.position + 3 <= r.value.cursor.position))
  {
    assert c.rune != EndOfText && c.rune != '-';
  }

  /**
    Without a table entry, a punctuation rune other than `"` and the first
    rune of `<<`, `>>` or `--` is a token of its own whose tag is the rune
    (code/code_parser.c:313-315).
   */
  lemma SingleRuneFallback(rev: Revision, src: seq<byte>, c: Cursor, p: Peeked)
    requires Wf(src, c) && Peek(src, c) == Done(p) && c.rune in Punctuation && c.rune != '"'
    requires CompoundOf(c.rune, p.rune).None?
    requires !((c.rune == '<' || c.rune == '>' || c.rune == '-') && p.rune == c.rune)
    ensures Classify(rev, src, c, p).Done? ==>
      Classify(rev, src, c, p).value == Scanned(Single(c.rune), Classify(rev, src, c, p).value.cursor)
      && Classify(rev, src, c, p).value.cursor.position == c.position + 1
  {
  }

  /**
    The earlier revision has no comments: `--` is a minus token followed by
    another (code/code.c:192-203).
   */
  lemma EarlyDoubleMinus(src: seq<byte>, c: Cursor, p: Peeked)
    requires Wf(src, c) && Peek(src, c) == Done(p) && c.rune == '-' && p.rune == '-'
    ensures Classify(Early, src, c, p).Done? ==>
      Classify(Early, src, c, p).value == Scanned(Single('-'), Classify(Early, src, c, p).value.cursor)
      && Classify(Early, src, c, p).value.cursor.position == c.position + 1
  {
  }

  /**
    In the current revision `--` produces no token: the scan restarts at the
    first line feed after it (code/code_parser.c:201-206).
   */
  lemma CommentRestarts(src: seq<byte>, c: Cursor, p: Peeked)
    requires Wf(src, c) && Peek(src, c) == Done(p) && c.rune == '-' && p.rune == '-'
    ensures var r := Classify(Current, src, c, p);
      r.Done? ==> r.value.Restart? && r.value.cursor.rune == '\n'
                  && forall k | c.position <= k < r.value.cursor.position :: src[k] != 10
  {
    Ascii(src, c);
  }

  /**
    Once `parser_get_token` returns `etx` it returns the same token again
    and leaves the cursor where it is (code/code_parser.c:147-149, 375).
   */
  lemma EtxIsFixedPoint(rev: Revision, src: seq<byte>, c: Cursor)
    requires Wf(src, c) && GetToken(rev, src, c).Done? && GetToken(rev, src, c).value.token.tag == Etx
    ensures GetToken(rev, src, GetToken(rev, src, c).value.cursor) == GetToken(rev, src, c)
  {
    var after := GetToken(rev, src, c).value.cursor;
    assert SkipWhitespace(src, after) == Done(after);
    var p := Peek(src, after);
    assert Classify(rev, src, after, p.value) == Done(Scanned(Etx, after));
  }

  /** At the end of the source every call yields an empty `etx` token at the cursor. */
  lemma EndYieldsEtx(rev: Revision, src: seq<byte>, c: Cursor)
    requires Wf(src, c) && AtEnd(src, c)
    ensures GetToken(rev, src, c) == Done(Lexed(Token(Etx, c.position, c.position, c.row, c.column), c))
  {
    assert SkipWhitespace(src, c) == Done(c);
    assert Peek(src, c) == Done(Peeked(EndOfText, 0));
  }

  /**
    A text literal with no `"` after its opening one never ends: the loop
    spins on ETX (code/code_parser.c:279-292; code/code.c:275-288).
   */
  lemma UnterminatedText(rev: Revision, src: seq<byte>, c: Cursor)
    requires Wf(src, c) && c.rune == '"' && forall k | c.position < k < |src| :: src[k] != '"' as byte
    ensures !TextToken(rev, src, c).Done?
    ensures AsciiFrom(src, c.position) ==> TextToken(rev, src, c) == Hangs
  {
    TextTokenQuotes(rev, src, c);
    var body := TextBody(src, c);
    if body.Done? {
      LeadByte(src, body.value);
    }
  }

  /**
    After `\` the loop passes two runes before it tests again, so in the
    source `"\n"` the closing `"` is never seen and the literal runs into the
    end (code/code_parser.c:283-291).
   */
  lemma EscapeHidesClosingQuote(src: seq<byte>)
    requires src == ['"' as byte, '\\' as byte, 'n' as byte, '"' as byte]
    ensures Load(src).Done? && TextToken(Current, src, Load(src).value) == Hangs
  {
    assert Decode(src, 0) == Rune('"', 1);
    var c := Load(src).value;
    assert Decode(src, 1) == Rune('\\', 1);
    assert Decode(src, 2) == Rune('n', 1);
    assert Decode(src, 3) == Rune('"', 1);
    var backslash := Advance(src, c).value;
    var escaped := Advance(src, backslash).value;
    var last := Advance(src, escaped).value;
    var end := Advance(src, last).value;
    assert AtEnd(src, end) && end.rune != '"' && end.rune != '\\';
    assert TextBody(src, last) == TextBody(src, end) == Hangs;
    assert TextBody(src, c) == TextBody(src, last);
  }

  /** A `--` comment with no line feed after it never ends: the loop spins on ETX (code/code_parser.c:203-204). */
  lemma UnterminatedComment(src: seq<byte>, c: Cursor)
    requires Wf(src, c) && forall k | c.position <= k < |src| :: src[k] != 10
    ensures !CommentTail(src, c).Done?
    ensures AsciiFrom(src, c.position) ==> CommentTail(src, c) == Hangs
  {
    // A corollary of the contract of `CommentTail`: a stop would be on a line
    // feed, and on ASCII bytes the loop cannot fail.
  }

  /** On ASCII input a `--` comment ends on the first line feed after it (code/code_parser.c:203-204). */
  lemma CommentEnds(src: seq<byte>, c: Cursor, e: nat)
    requires Wf(src, c) && AsciiFrom(src, c.position)
    requires c.position <= e < |src| && src[e] == 10
    requires forall k | c.position <= k < e :: src[k] != 10
    ensures CommentTail(src, c).Done? && CommentTail(src, c).value.position == e
  {
    // A corollary of the contract of `CommentTail`: it cannot hang past the
    // line feed at `e` nor fail on ASCII bytes, and it stops on the first line feed.
  }

  /** The literal loop on ASCII input: with no `"` and no `\` before byte `e`, it stops on the `"` at `e`. */
  lemma {:induction false} TextBodyEnds(src: seq<byte>, c: Cursor, e: nat)
    requires Wf(src, c) && AsciiFrom(src, c.position)
    requires c.position < e < |src| && src[e] == '"' as byte
    requires forall k | c.position < k < e :: src[k] != '"' as byte && src[k] != '\\' as byte
    ensures TextBody(src, c).Done? && TextBody(src, c).value.position == e
    decreases e - c.position
  {
    assert Decode(src, c.position) == Rune(CharOf(src[c.position]), 1);
    var next := Advance(src, c).value;
    assert Decode(src, next.position) == Rune(CharOf(src[next.position]), 1);
    if next.position < e {
      TextBodyEnds(src, next, e);
    }
  }

  /**
    A literal on ASCII input whose first `"` after the opening one has no `\`
    before it ends just after that quote (code/code_parser.c:278-295; code/code.c:274-291).
   */
  lemma ClosedText(rev: Revision, src: seq<byte>, c: Cursor, e: nat)
    requires Wf(src, c) && c.rune == '"' && AsciiFrom(src, c.position)
    requires c.position < e < |src| && src[e] == '"' as byte
    requires forall k | c.position < k < e :: src[k] != '"' as byte && src[k] != '\\' as byte
    ensures TextToken(rev, src, c).Done? && TextToken(rev, src, c).value.cursor.position == e + 1
  {
    TextBodyEnds(src, c, e);
    var closing := TextBody(src, c).value;
    assert Decode(src, closing.position) == Rune(CharOf(src[closing.position]), 1);
  }

  /** The numeral loop on ASCII input runs over numeral runes with at most one `.` and stops on the first other rune. */
  lemma {:induction false} NumeralTailEnds(src: seq<byte>, start: Cursor, c: Cursor, tag: TokenTag, e: nat)
    requires Wf(src, c) && (tag == Digital || tag == Decimal) && AsciiFrom(src, c.position)
    requires c.position <= e <= |src| && AllNumeralRunes(src, c.position, e)
    requires e < |src| ==> !IsNumeralRune(CharOf(src[e]))
    requires Dots(src[c.position..e]) + (if tag == Decimal then 1 else 0) <= 1
    ensures NumeralTail(src, start, c, tag).Done? && NumeralTail(src, start, c, tag).value.cursor.position == e
    decreases e - c.position
  {
    LeadByte(src, c);
    if c.position < e {
      assert Decode(src, c.position) == Rune(CharOf(src[c.position]), 1);
      DotsSplit(src, c.position, e);
      var next := Advance(src, c).value;
      NumeralTailEnds(src, start, next, if c.rune == '.' then Decimal else tag, e);
    }
  }

  /**
    A numeral on ASCII input ends on the first rune that is not a digit, `_`
    or `.`, provided it holds at most one `.` (code/code_parser.c:330-366).
   */
  lemma NumeralEnds(src: seq<byte>, c: Cursor, e: nat)
    requires Wf(src, c) && IsDigit(c.rune) && AsciiFrom(src, c.position)
    requires c.position < e <= |src| && AllNumeralRunes(src, c.position, e)
    requires e < |src| ==> !IsNumeralRune(CharOf(src[e]))
    requires Dots(src[c.position..e]) <= 1
    ensures NumeralToken(src, c).Done? && NumeralToken(src, c).value.cursor.position == e
    ensures NumeralToken(src, c).value.tag == (if Dots(src[c.position..e]) == 1 then Decimal else Digital)
  {
    NumeralTailEnds(src, c, c, Digital, e);
  }

  /** The dump from `c` reports the tags of the tokens before the first `etx` and stops as tokenization does. */
  predicate DumpAgrees(src: seq<byte>, c: Cursor)
    requires Wf(src, c)
  {
    var s := TokenizeFrom(Early, src, c);
    && DumpFrom(src, c).halt == s.halt
    && DumpFrom(src, c).reports == Tags(if s.halt.EndsAtEtx? then s.tokens[..|s.tokens| - 1] else s.tokens)
  }

  /**
    The dump reports exactly the tokens the earlier-revision tokenizer
    returns before its first `etx`, and stops the same way.
   */
  lemma {:induction false} DumpReportsTokens(src: seq<byte>, c: Cursor)
    requires Wf(src, c)
    ensures DumpAgrees(src, c)
    decreases |src| - c.position
  {
    var g := GetToken(Early, src, c);
    if g.Done? && g.value.token.tag != Etx {
      DumpReportsTokens(src, g.value.cursor);
      DumpStep(src, c, g.value.token, g.value.cursor);
    } else if g.Done? {
      var s := TokenizeFrom(Early, src, c);
      assert s == TokenStream([g.value.token], EndsAtEtx);
      assert s.tokens[..|s.tokens| - 1] == [];
      assert DumpFrom(src, c) == Dumped([], EndsAtEtx);
    } else if g.Failed? {
      assert TokenizeFrom(Early, src, c) == TokenStream([], Breaks(g.failure));
      assert DumpFrom(src, c) == Dumped([], Breaks(g.failure));
    } else {
      assert TokenizeFrom(Early, src, c) == TokenStream([], Stalls);
      assert DumpFrom(src, c) == Dumped([], Stalls);
    }
  }

  /** One report: a token other than `etx` is reported first, then the rest of the dump. */
  lemma DumpStep(src: seq<byte>, c: Cursor, t: Token, next: Cursor)
    requires Wf(src, c) && GetToken(Early, src, c) == Done(Lexed(t, next)) && t.tag != Etx
    requires Wf(src, next) && DumpAgrees(src, next)
    ensures DumpAgrees(src, c)
  {
    var rest := TokenizeFrom(Early, src, next);
    var s := TokenizeFrom(Early, src, c);
    assert s.tokens == [t] + rest.tokens && s.halt == rest.halt;
    assert DumpFrom(src, c) == Dumped([t.tag] + DumpFrom(src, next).reports, rest.halt);
    var shown := if rest.halt.EndsAtEtx? then rest.tokens[..|rest.tokens| - 1] else rest.tokens;
    TagsCons(t, shown);
    if rest.halt.EndsAtEtx? {
      assert s.tokens[..|s.tokens| - 1] == [t] + shown;
    }
  }

  lemma TagsCons(t: Token, rest: seq<Token>)
    ensures Tags([t] + rest) == [t.tag] + Tags(rest)
  {
    assert ([t] + rest)[1..] == rest;
  }
}

=== FILE: nodes.dfy ===
/**
  The syntax tree (code/code_parser.h:50-60) and the precedence table
  (code/code_parser.c:400-463).

  A node of the C tree is a tag followed by a body whose layout the tag's
  arity fixes; here each arity is a constructor.  An absent child (a null
  pointer in the C tree) is `None`.  Nodes record no source position.
 */
module Nodes {
  import opened Utf8
  import opened Outcomes

  /** The tags of the nodes that have children. */
  datatype NodeTag =
    | Subexpression | Indexation
    | Procedure
    | LogicalNegation | Negation | BitwiseNegation | Reference
    | Multiplication | Division | Modulus
    | Addition | Subtraction
    | BitwiseLeftShift | BitwiseRightShift
    | LogicalMinority | LogicalMajority | LogicalInclusiveMinority | LogicalInclusiveMajority
    | LogicalEquality | LogicalInequality
    | BitwiseConjunction
    | BitwiseExclusiveDisjunction
    | BitwiseDisjunction
    | LogicalConjunction
    | LogicalDisjunction
    | Invocation
    | Declaration
    | Assignment | AdditionAssignment | SubtractionAssignment | MultiplicationAssignment
    | DivisionAssignment | ModulusAssignment | BitwiseConjunctionAssignment
    | BitwiseDisjunctionAssignment | BitwiseExclusiveDisjunctionAssignment
    | BitwiseLeftShiftAssignment | BitwiseRightShiftAssignment
    | Condition
    | List
    | Resolution

  /**
    The binding strength of an operator.  The table has no entry for
    `Resolution`, so it has the zero a missing initializer gets, the same as
    the bracketing tags.
   */
  function Precedence(t: NodeTag): nat {
    match t
    case Subexpression | Indexation | Resolution => 0
    case Procedure => 150
    case LogicalNegation | Negation | BitwiseNegation | Reference => 140
    case Multiplication | Division | Modulus => 130
    case Addition | Subtraction => 120
    case BitwiseLeftShift | BitwiseRightShift => 110
    case LogicalMinority | LogicalMajority | LogicalInclusiveMinority | LogicalInclusiveMajority => 100
    case LogicalEquality | LogicalInequality => 90
    case BitwiseConjunction => 80
    case BitwiseExclusiveDisjunction => 70
    case BitwiseDisjunction => 60
    case LogicalConjunction => 50
    case LogicalDisjunction => 40
    case Invocation => 30
    case Declaration => 20
    case Assignment | AdditionAssignment | SubtractionAssignment | MultiplicationAssignment
      | DivisionAssignment | ModulusAssignment | BitwiseConjunctionAssignment
      | BitwiseDisjunctionAssignment | BitwiseExclusiveDisjunctionAssignment
      | BitwiseLeftShiftAssignment | BitwiseRightShiftAssignment | Condition => 10
    case List => 1
  }

  datatype Node =
    | IdentifierNode(runes: seq<byte>)
    | TextNode(runes: seq<byte>)       // the literal with its quotes, escapes unresolved
    | DigitalNode(value: nat)          // an unsigned 64-bit value
    | DecimalNode(runes: seq<byte>)    // the numeral's bytes; the float conversion is not modelled
    | ScopeNode(nodes: seq<Node>)
    | UnaryNode(tag: NodeTag, operand: Option<Node>)
    | BinaryNode(tag: NodeTag, left: Node, right: Option<Node>)
    | TernaryNode(tag: NodeTag, left: Node, right: Option<Node>, third: Option<Node>)

  const Word: nat := 0x1_0000_0000_0000_0000

  /**
    The value of a `digital` token (code/code_parser.c:835-861): a left fold
    of `value * 10 + (byte - '0')` in 64-bit unsigned arithmetic, skipping
    `_`.  Defined from the last byte so that appending a digit is one step.
   */
  function DigitalValue(runes: seq<byte>): (v: nat)
    ensures v < Word
  {
    if runes == [] then 0
    else
      var init, last := runes[..|runes| - 1], runes[|runes| - 1];
      if last == '_' as byte then DigitalValue(init)
      else (DigitalValue(init) * 10 + (last as int - '0' as int)) % Word
  }

  /** The same fold in unbounded arithmetic: the numeral as written. */
  function Numeral(runes: seq<byte>): nat
    requires forall k | 0 <= k < |runes| :: '0' as byte <= runes[k] <= '9' as byte || runes[k] == '_' as byte
  {
    if runes == [] then 0
    else
      var init, last := runes[..|runes| - 1], runes[|runes| - 1];
      if last == '_' as byte then Numeral(init)
      else Numeral(init) * 10 + (last as int - '0' as int)
  }

  /** Euclidean remainders are unique. */
  lemma ModUnique(n: int, m: int, q: int, r: int)
    requires m > 0 && n == q * m + r && 0 <= r < m
    ensures n % m == r
  {
    var q', r' := n / m, n % m;
    assert (q - q') * m == r' - r by {
      assert q * m - q' * m == (q - q') * m;
    }
    if q > q' {
      AtLeastOnce(q - q', m);
    } else if q < q' {
      AtLeastOnce(q' - q, m);
    }
  }

  lemma {:induction false} AtLeastOnce(k: int, m: int)
    requires k >= 1 && m > 0
    ensures k * m >= m
    decreases k
  {
    if k > 1 {
      AtLeastOnce(k - 1, m);
      assert k * m == (k - 1) * m + m;
    }
  }

  lemma MulMod(a: int, d: int, m: int)
    requires m > 0
    ensures ((a % m) * 10 + d) % m == (a * 10 + d) % m
  {
    var x := (a % m) * 10 + d;
    var q := a / m;
    assert a * 10 + d == x + (q * 10) * m;
    ModUnique(x, m, x / m, x % m);
    ModUnique(a * 10 + d, m, x / m + q * 10, x % m);
  }

  /** A digit string's value is the numeral it spells, reduced modulo 2^64. */
  lemma {:induction false} DigitalIsNumeralModWord(runes: seq<byte>)
    requires forall k | 0 <= k < |runes| :: '0' as byte <= runes[k] <= '9' as byte || runes[k] == '_' as byte
    ensures DigitalValue(runes) == Numeral(runes) % Word
    decreases |runes|
  {
    if runes != [] {
      var init := runes[..|runes| - 1];
      DigitalIsNumeralModWord(init);
      if runes[|runes| - 1] != '_' as byte {
        MulMod(Numeral(init), runes[|runes| - 1] as int - '0' as int, Word);
      }
    }
  }

  /** The decimal digits of a number, most significant first, with no leading zeros. */
  function Render(n: nat): (s: seq<byte>)
    ensures |s| > 0 && forall k | 0 <= k < |s| :: '0' as byte <= s[k] <= '9' as byte
    ensures s[0] == '0' as byte ==> n == 0
  {
    if n < 10 then [(n + '0' as int) as byte]
    else Render(n / 10) + [(n % 10 + '0' as int) as byte]
  }

  /** Reading back a rendered 64-bit value gives the value. */
  lemma {:induction false} DigitalRender(n: nat)
    requires n < Word
    ensures DigitalValue(Render(n)) == n
  {
    if n >= 10 {
      var s := Render(n);
      assert s[..|s| - 1] == Render(n / 10);
      DigitalRender(n / 10);
    }
  }

  /**
    Any numeral reads as its value modulo 2^64: 18446744073709551616 reads
    as 0, as the 64-bit accumulator wraps around.
   */
  lemma DigitalWraps(n: nat)
    ensures DigitalValue(Render(n)) == n % Word
  {
    DigitalIsNumeralModWord(Render(n));
    NumeralRender(n);
  }

  lemma {:induction false} NumeralRender(n: nat)
    ensures Numeral(Render(n)) == n
  {
    if n >= 10 {
      var s := Render(n);
      assert s[..|s| - 1] == Render(n / 10);
      NumeralRender(n / 10);
    }
  }

  /** Underscores do not change a value: `1_000` reads as `1000`. */
  lemma {:induction false} UnderscoreIgnored(a: seq<byte>, b: seq<byte>)
    ensures DigitalValue(a + ['_' as byte] + b) == DigitalValue(a + b)
    decreases |b|
  {
    if b == [] {
      assert (a + ['_' as byte] + b)[..|a| + 1 - 1] == a;
      assert a + b == a;
    } else {
      var init := b[..|b| - 1];
      assert (a + ['_' as byte] + b)[..|a| + 1 + |b| - 1] == a + ['_' as byte] + init;
      assert (a + b)[..|a| + |b| - 1] == a + init;
      UnderscoreIgnored(a, init);
    }
  }

  /**
    The growable array of a scope's nodes (code/code_parser.c:757-776): the
    capacity starts at 8 and, when the array is full, grows by half of
    itself before the next node is stored.
   */
  datatype NodeBuffer = NodeBuffer(nodes: seq<Node>, capacity: nat) {
    /** Never overfull, never below the initial 8, and never more than half again as large as needed. */
    predicate Valid() {
      && |nodes| <= capacity
      && 8 <= capacity
      && (capacity == 8 || 2 * capacity <= 3 * |nodes|)
    }
  }

  function EmptyBuffer(): (b: NodeBuffer)
    ensures b.Valid() && b.nodes == []
  {
    NodeBuffer([], 8)
  }

  function Append(b: NodeBuffer, n: Node): (r: NodeBuffer)
    requires b.Valid()
    ensures r.Valid()
    ensures r.nodes == b.nodes + [n]
    ensures r.capacity >= b.capacity
  {
    var capacity := if |b.nodes| >= b.capacity then b.capacity + b.capacity / 2 else b.capacity;
    NodeBuffer(b.nodes + [n], capacity)
  }

  /** The capacity after a run of appends to an empty buffer: 8, 12, 18, 27, 40, ... */
  function Capacities(count: nat): nat {
    if count <= 8 then 8
    else
      var before := Capacities(count - 1);
      if count - 1 >= before then before + before / 2 else before
  }

  /** Appending `ns` one at a time, as the statement loop does. */
  function AppendAll(b: NodeBuffer, ns: seq<Node>): (r: NodeBuffer)
    requires b.Valid()
    ensures r.Valid()
    decreases |ns|
  {
    if ns == [] then b else AppendAll(Append(b, ns[0]), ns[1..])
  }

  /** Appending keeps every node, in order, and the capacity follows the growth sequence. */
  lemma {:induction false} AppendAllKeepsOrder(b: NodeBuffer, ns: seq<Node>)
    requires b.Valid() && b.capacity == Capacities(|b.nodes|)
    ensures AppendAll(b, ns).nodes == b.nodes + ns
    ensures AppendAll(b, ns).capacity == Capacities(|b.nodes| + |ns|)
    decreases |ns|
  {
    if ns != [] {
      var next := Append(b, ns[0]);
      assert next.capacity == Capacities(|b.nodes| + 1);
      AppendAllKeepsOrder(next, ns[1..]);
      assert b.nodes + [ns[0]] + ns[1..] == b.nodes + ns;
    }
  }
}

=== FILE: parser.dfy ===
/**
  The precedence-climbing parser (code/code_parser.c:383-682) and the scope
  builder (code/code_parser.c:752-811).

  `parser_get_token` reads only the cursor, never the parser's own state, so
  the parser runs over the stream of tokens the lexer produces: the current
  token is `tokens[i]`, and moving on is `Next`, which also surfaces how the
  lexer stops.  Every `jump` of the C code is a `Failed` outcome carrying the
  one failure reported before it.
 */
module Parser {
  import opened Utf8
  import opened Tokens
  import opened Outcomes
  import opened Lexer
  import opened Nodes

  datatype Input = Input(source: seq<byte>, stream: TokenStream)

  /** The tag of token `k`; named so that the fact below is used only where it is asked for. */
  function TagAt(tokens: seq<Token>, k: nat): TokenTag
    requires k < |tokens|
  {
    tokens[k].tag
  }

  /** What the lexer can hand over: spans inside the source, `etx` only last, and last when the stream ends there. */
  predicate Valid(inp: Input) {
    var tokens := inp.stream.tokens;
    && SpansWithin(tokens, |inp.source|)
    && (forall k | 0 <= k < |tokens| - 1 :: TagAt(tokens, k) != Etx)
    && (inp.stream.halt.EndsAtEtx? <==> |tokens| > 0 && tokens[|tokens| - 1].tag == Etx)
  }

  /** A parse result: the node built, if any, and the index of the token now current. */
  datatype Step = Step(node: Option<Node>, next: nat)

  function Tag(inp: Input, i: nat): TokenTag
    requires i < |inp.stream.tokens|
  {
    inp.stream.tokens[i].tag
  }

  /** The source bytes a token spans. */
  function Bytes(inp: Input, i: nat): seq<byte>
    requires Valid(inp) && i < |inp.stream.tokens|
  {
    var t := inp.stream.tokens[i];
    inp.source[t.beginning..t.ending]
  }

  /**
    The next call of `parser_get_token`: the following token, or the same
    `etx` again at the end, or the failure or endless loop of the lexer.
   */
  function Next(inp: Input, i: nat): (r: Outcome<nat>)
    requires Valid(inp) && i < |inp.stream.tokens|
    ensures r.Done? ==> i <= r.value < |inp.stream.tokens|
    ensures r.Done? && r.value == i ==> Tag(inp, i) == Etx
    ensures Tag(inp, i) == Etx ==> i + 1 == |inp.stream.tokens| && r == Done(i)
    ensures i + 1 < |inp.stream.tokens| ==> r == Done(i + 1)
    ensures i + 1 == |inp.stream.tokens| ==>
      match inp.stream.halt
      case EndsAtEtx => r == Done(i)
      case Breaks(f) => r == Failed(f)
      case Stalls => r == Hangs
  {
    if i + 1 < |inp.stream.tokens| then
      assert TagAt(inp.stream.tokens, i) != Etx;
      Done(i + 1)
    else
      match inp.stream.halt
      case EndsAtEtx => Done(i)
      case Breaks(f) => Failed(f)
      case Stalls => Hangs
  }

  /** `parser_ensure_token` (code/code_parser.c:383-390). */
  function Ensure(inp: Input, i: nat, tag: TokenTag): (r: Outcome<nat>)
    requires i < |inp.stream.tokens|
    ensures r == Done(i) <==> Tag(inp, i) == tag
    ensures r.Failed? <==> Tag(inp, i) != tag
    ensures r.Failed? ==> r.failure == ExpectedToken(tag, inp.stream.tokens[i])
  {
    if Tag(inp, i) == tag then Done(i) else Failed(ExpectedToken(tag, inp.stream.tokens[i]))
  }

  /** The operator a token stands for after an operand, and whether it takes a third part (code/code_parser.c:594-640). */
  function Infix(t: TokenTag): (NodeTag, bool) {
    match t
    case Ampersand2 => (LogicalConjunction, false)
    case VerticalBar2 => (LogicalDisjunction, false)
    case EqualSign2 => (LogicalEquality, false)
    case ExclamationMarkEqualSign => (LogicalInequality, false)
    case GreaterThanSignEqualSign => (LogicalInclusiveMajority, false)
    case LessThanSignEqualSign => (LogicalInclusiveMinority, false)
    case LessThanSign2 => (BitwiseLeftShift, false)
    case GreaterThanSign2 => (BitwiseRightShift, false)
    case PlusSignEqualSign => (AdditionAssignment, false)
    case MinusSignEqualSign => (SubtractionAssignment, false)
    case AsteriskEqualSign => (MultiplicationAssignment, false)
    case SlashEqualSign => (DivisionAssignment, false)
    case PercentSignEqualSign => (ModulusAssignment, false)
    case AmpersandEqualSign => (BitwiseConjunctionAssignment, false)
    case VerticalBarEqualSign => (BitwiseDisjunctionAssignment, false)
    case CircumflexAccentEqualSign => (BitwiseExclusiveDisjunctionAssignment, false)
    case LessThanSign2EqualSign => (BitwiseLeftShiftAssignment, false)
    case GreaterThanSign2EqualSign => (BitwiseRightShiftAssignment, false)
    case MinusSignGreaterThanSign => (Procedure, true)
    case Single(r) =>
      (match r
       case '>' => (LogicalMajority, false)
       case '<' => (LogicalMinority, false)
       case '+' => (Addition, false)
       case '-' => (Subtraction, false)
       case '*' => (Multiplication, false)
       case '/' => (Division, false)
       case '%' => (Modulus, false)
       case '&' => (BitwiseConjunction, false)
       case '|' => (BitwiseDisjunction, false)
       case '^' => (BitwiseExclusiveDisjunction, false)
       case '=' => (Assignment, false)
       case '.' => (Resolution, false)
       case ',' => (List, false)
       case ':' => (Declaration, false)
       case '?' => (Condition, true)
       case _ => (Invocation, false))
    case _ => (Invocation, false)
  }

  /** The prefix operators (code/code_parser.c:515-518). */
  function Prefix(r: char): Option<NodeTag> {
    match r
    case '!' => Some(LogicalNegation)
    case '-' => Some(Negation)
    case '~' => Some(BitwiseNegation)
    case '@' => Some(Reference)
    case _ => None
  }

  /** Tokens at which the operand parse yields nothing without moving: terminators, `{` after `->`, and `=`. */
  predicate Yields(t: TokenTag, p: nat) {
    IsTerminator(t) || (t == Single('{') && p == Precedence(Procedure)) || t == Single('=')
  }

  /** Tokens at which the operator loop at threshold `p` stops. */
  predicate Stops(t: TokenTag, p: nat) {
    IsTerminator(t) || Precedence(Infix(t).0) <= p
  }

  /** The root of a node does not bind looser than `p`: an operand, or an operator above `p`. */
  predicate Above(n: Node, p: nat) {
    match n
    case BinaryNode(tag, _, _) => Precedence(tag) > p
    case TernaryNode(tag, _, _, _) => Precedence(tag) > p
    case _ => true
  }

  /** Failures the parser itself reports, as opposed to those the lexer hands over. */
  predicate IsParserFailure(f: Failure) {
    f.ExpectedToken? || f.UnexpectedToken? || f.Unterminated? || f.Extraneous? || f.Unimplemented?
  }

  /** A failure is the parser's own or one the lexer's stream ends with. */
  predicate Explained(inp: Input, f: Failure) {
    IsParserFailure(f) || inp.stream.halt == Breaks(f)
  }

  /**
    `parser_parse_node` (code/code_parser.c:473-682): an operand, then as
    many operators as bind more tightly than `p`.
   */
  function ParseNode(inp: Input, p: nat, i: nat): (r: Outcome<Step>)
    requires Valid(inp) && i < |inp.stream.tokens|
    ensures r.Done? ==> i <= r.value.next < |inp.stream.tokens|
    ensures r.Done? && r.value.next == i ==> r.value.node.None? && Yields(Tag(inp, i), p)
    ensures r.Failed? ==> Explained(inp, r.failure)
    ensures r.Hangs? ==> inp.stream.halt.Stalls?
    decreases |inp.stream.tokens| - i, 3
  {
    var operand :- Operand(inp, p, i);
    match operand.node
    case None => Done(operand)
    case Some(left) => Climb(inp, p, left, operand.next)
  }

  /** The first `switch` of `parser_parse_node` (code/code_parser.c:479-576). */
  function Operand(inp: Input, p: nat, i: nat): (r: Outcome<Step>)
    requires Valid(inp) && i < |inp.stream.tokens|
    ensures r.Done? ==> i <= r.value.next < |inp.stream.tokens|
    ensures r.Done? && r.value.next == i ==> r.value.node.None? && Yields(Tag(inp, i), p)
    ensures r.Done? && r.value.node.Some? ==> i < r.value.next
    ensures r.Done? && Yields(Tag(inp, i), p) ==> r.value == Step(None, i)
    ensures r.Failed? ==> Explained(inp, r.failure)
    ensures r.Hangs? ==> inp.stream.halt.Stalls?
    decreases |inp.stream.tokens| - i, 2
  {
    var tag := Tag(inp, i);
    if IsTerminator(tag) || tag == Single('=') then
      Done(Step(None, i))
    else if tag == Single('#') then
      var j :- Next(inp, i);
      var _ :- Ensure(inp, j, Identifier);
      Done(Step(None, j))
    else if tag == Single('(') || tag == Single('[') then
      Bracketed(inp, i, tag == Single('('))
    else if tag.Single? && Prefix(tag.rune).Some? then
      Prefixed(inp, i, Prefix(tag.rune).value)
    else if tag == Single('{') then
      if p == Precedence(Procedure) then Done(Step(None, i))
      else ParseScope(inp, i)
    else if tag == Identifier then
      var j :- Next(inp, i);
      Done(Step(Some(IdentifierNode(Bytes(inp, i))), j))
    else if tag == Text then
      var j :- Next(inp, i);
      Done(Step(Some(TextNode(Bytes(inp, i))), j))
    else if tag == Digital then
      var j :- Next(inp, i);
      Done(Step(Some(DigitalNode(DigitalValue(Bytes(inp, i)))), j))
    else if tag == Decimal then
      var j :- Next(inp, i);
      Done(Step(Some(DecimalNode(Bytes(inp, i))), j))
    else
      Failed(UnexpectedToken(inp.stream.tokens[i]))
  }

  /**
    `(` or `[`: a node at the lowest precedence, then the matching closing
    bracket (code/code_parser.c:494-503).
   */
  function Bracketed(inp: Input, i: nat, subexpression: bool): (r: Outcome<Step>)
    requires Valid(inp) && i < |inp.stream.tokens| && !IsTerminator(Tag(inp, i))
    ensures r.Done? ==> i < r.value.next < |inp.stream.tokens| && r.value.node.Some?
    ensures r.Done? ==> r.value.node.value.UnaryNode?
                        && r.value.node.value.tag == (if subexpression then Subexpression else Indexation)
    ensures r.Done? ==> Tag(inp, r.value.next - 1) == (if subexpression then Single(')') else Single(']'))
    ensures r.Failed? ==> Explained(inp, r.failure)
    ensures r.Hangs? ==> inp.stream.halt.Stalls?
    decreases |inp.stream.tokens| - i, 1
  {
    var j :- Next(inp, i);
    var inner :- ParseNode(inp, 0, j);
    var k :- Ensure(inp, inner.next, if subexpression then Single(')') else Single(']'));
    var after :- Next(inp, k);
    Done(Step(Some(UnaryNode(if subexpression then Subexpression else Indexation, inner.node)), after))
  }

  /** A prefix operator: its operand parsed at the operator's precedence (code/code_parser.c:513-522). */
  function Prefixed(inp: Input, i: nat, op: NodeTag): (r: Outcome<Step>)
    requires Valid(inp) && i < |inp.stream.tokens| && !IsTerminator(Tag(inp, i))
    ensures r.Done? ==> i < r.value.next < |inp.stream.tokens| && r.value.node.Some?
    ensures r.Failed? ==> Explained(inp, r.failure)
    ensures r.Hangs? ==> inp.stream.halt.Stalls?
    decreases |inp.stream.tokens| - i, 1
  {
    var j :- Next(inp, i);
    var operand :- ParseNode(inp, Precedence(op), j);
    Done(Step(Some(UnaryNode(op, operand.node)), operand.next))
  }

  /**
    The operator loop (code/code_parser.c:578-679), one test per call:
    `left` is the tree so far and `tokens[i]` the token after it; the loop
    ends at a terminator or an operator that does not bind above `p`.
   */
  function Climb(inp: Input, p: nat, left: Node, i: nat): (r: Outcome<Step>)
    requires Valid(inp) && i < |inp.stream.tokens|
    ensures r.Done? ==> i <= r.value.next < |inp.stream.tokens| && r.value.node.Some?
    ensures Stops(Tag(inp, i), p) <==> r == Done(Step(Some(left), i))
    ensures r.Failed? ==> Explained(inp, r.failure)
    ensures r.Hangs? ==> inp.stream.halt.Stalls?
    decreases |inp.stream.tokens| - i, 5
  {
    var tag := Tag(inp, i);
    var (op, ternary) := Infix(tag);
    if IsTerminator(tag) || Precedence(op) <= p then
      Done(Step(Some(left), i))
    else
      Bind(inp, p, left, i, op, ternary)
  }

  /**
    The body of the operator loop for an operator `op` that binds: skip the
    operator unless it is the invisible invocation, parse the right operand
    at `op`'s precedence, and for `->` and `?` the optional third part.
   */
  function Bind(inp: Input, p: nat, left: Node, i: nat, op: NodeTag, ternary: bool): (r: Outcome<Step>)
    requires Valid(inp) && i < |inp.stream.tokens| && !IsTerminator(Tag(inp, i))
    requires Precedence(op) > p && (op == Invocation ==> Tag(inp, i) != Single('='))
    ensures r.Done? ==> i < r.value.next < |inp.stream.tokens| && r.value.node.Some?
    ensures r.Failed? ==> Explained(inp, r.failure)
    ensures r.Hangs? ==> inp.stream.halt.Stalls?
    decreases |inp.stream.tokens| - i, 4
  {
    var j :- if op != Invocation then Next(inp, i) else Done(i);
    var right :- ParseNode(inp, Precedence(op), j);
    assert i < right.next;
    Join(inp, p, left, op, ternary, right)
  }

  /**
    The rest of the loop body once the right operand is parsed: a binary
    node, or for `->` and `?` a ternary node with the optional third part;
    then the next test of the loop.
   */
  function Join(inp: Input, p: nat, left: Node, op: NodeTag, ternary: bool, right: Step): (r: Outcome<Step>)
    requires Valid(inp) && right.next < |inp.stream.tokens| && Precedence(op) > p
    ensures r.Done? ==> right.next <= r.value.next < |inp.stream.tokens| && r.value.node.Some?
    ensures r.Failed? ==> Explained(inp, r.failure)
    ensures r.Hangs? ==> inp.stream.halt.Stalls?
    decreases |inp.stream.tokens| - right.next, 6
  {
    if !ternary then
      Climb(inp, p, BinaryNode(op, left, right.node), right.next)
    else
      var third :- Third(inp, Precedence(op), right.next);
      Climb(inp, p, TernaryNode(op, left, right.node, third.node), third.next)
  }

  /** The optional third part of `->` and `?` (code/code_parser.c:653-673): a scope, or `:` and an operand. */
  function Third(inp: Input, p: nat, i: nat): (r: Outcome<Step>)
    requires Valid(inp) && i < |inp.stream.tokens|
    ensures r.Done? ==> i <= r.value.next < |inp.stream.tokens|
    ensures r.Done? && r.value.node.Some? ==> i < r.value.next
    ensures r.Done? && Tag(inp, i) != Single('{') && Tag(inp, i) != Single(':') ==> r.value == Step(None, i)
    ensures r.Failed? ==> Explained(inp, r.failure)
    ensures r.Hangs? ==> inp.stream.halt.Stalls?
    decreases |inp.stream.tokens| - i, 1
  {
    var tag := Tag(inp, i);
    if tag == Single('{') then
      ParseScope(inp, i)
    else if tag == Single(':') then
      var j :- Next(inp, i);
      ParseNode(inp, p, j)
    else
      Done(Step(None, i))
  }

  /** `parser_parse_scope` for a `{` block: skip the `{`, then the statements (code/code_parser.c:752-762). */
  function ParseScope(inp: Input, i: nat): (r: Outcome<Step>)
    requires Valid(inp) && i < |inp.stream.tokens| && Tag(inp, i) == Single('{')
    ensures r.Done? ==> i < r.value.next < |inp.stream.tokens| && r.value.node.Some? && r.value.node.value.ScopeNode?
    ensures r.Done? ==> Tag(inp, r.value.next - 1) == Single('}')
    ensures r.Failed? ==> Explained(inp, r.failure)
    ensures r.Hangs? ==> inp.stream.halt.Stalls?
    decreases |inp.stream.tokens| - i, 0
  {
    var j :- Next(inp, i);
    var scope :- Statements(inp, false, EmptyBuffer(), j);
    Done(Step(Some(ScopeNode(scope.nodes)), scope.next))
  }

  /** The buffer after a statement: a node is appended, an empty statement adds nothing (code/code_parser.c:765-777). */
  function Kept(buffer: NodeBuffer, node: Option<Node>): (r: NodeBuffer)
    requires buffer.Valid()
    ensures r.Valid()
    ensures r.nodes == buffer.nodes + (if node.Some? then [node.value] else [])
  {
    match node
    case Some(n) => Append(buffer, n)
    case None => buffer
  }

  /** The statements of a scope and the token after it. */
  datatype Block = Block(nodes: seq<Node>, next: nat)

  /**
    The statement loop of `parser_parse_scope` (code/code_parser.c:762-778):
    parse a node, keep it if there is one, and go on at the token after it.
   */
  function Statements(inp: Input, root: bool, buffer: NodeBuffer, i: nat): (r: Outcome<Block>)
    requires Valid(inp) && i < |inp.stream.tokens| && buffer.Valid()
    ensures r.Done? ==> i <= r.value.next < |inp.stream.tokens|
    ensures r.Done? && !root ==> i < r.value.next && Tag(inp, r.value.next - 1) == Single('}')
    ensures r.Done? && root ==> Tag(inp, r.value.next) == Etx
    ensures r.Done? ==> |buffer.nodes| <= |r.value.nodes| && r.value.nodes[..|buffer.nodes|] == buffer.nodes
    ensures r.Failed? ==> Explained(inp, r.failure)
    ensures r.Hangs? ==> inp.stream.halt.Stalls?
    decreases |inp.stream.tokens| - i, 6
  {
    var statement :- ParseNode(inp, 0, i);
    Separator(inp, root, Kept(buffer, statement.node), statement.next)
  }

  /**
    The token after a statement (code/code_parser.c:779-811): `;` continues
    the loop, `etx` ends the root and `}` ends a nested scope; either in the
    wrong scope is an error.  Any other token reaches `UNIMPLEMENTED`, an
    assertion that stops the program, which the model reports as an
    `Unimplemented` failure.
   */
  function Separator(inp: Input, root: bool, kept: NodeBuffer, k: nat): (r: Outcome<Block>)
    requires Valid(inp) && k < |inp.stream.tokens| && kept.Valid()
    ensures r.Done? ==> k <= r.value.next < |inp.stream.tokens|
    ensures r.Done? && !root ==> k < r.value.next && Tag(inp, r.value.next - 1) == Single('}')
    ensures r.Done? && root ==> Tag(inp, r.value.next) == Etx
    ensures r.Done? ==> |kept.nodes| <= |r.value.nodes| && r.value.nodes[..|kept.nodes|] == kept.nodes
    ensures Tag(inp, k) == Etx ==> r == (if root then Done(Block(kept.nodes, k)) else Failed(Unterminated(inp.stream.tokens[k])))
    ensures Tag(inp, k) == Single('}') && root ==> r == Failed(Extraneous(inp.stream.tokens[k]))
    ensures Tag(inp, k) == Single('}') && !root && k + 1 < |inp.stream.tokens| ==> r == Done(Block(kept.nodes, k + 1))
    ensures Tag(inp, k) !in {Single(';'), Etx, Single('}')} ==> r == Failed(Unimplemented(inp.stream.tokens[k]))
    ensures r.Failed? ==> Explained(inp, r.failure)
    ensures r.Hangs? ==> inp.stream.halt.Stalls?
    decreases |inp.stream.tokens| - k, 5
  {
    var tag := Tag(inp, k);
    if tag == Single(';') then
      var j :- Next(inp, k);
      Statements(inp, root, kept, j)
    else if tag == Etx then
      if !root then Failed(Unterminated(inp.stream.tokens[k]))
      else
        match Next(inp, k)
        case Done(j) => Done(Block(kept.nodes, j))
        case Failed(f) => Failed(f)
        case Hangs => Hangs
    else if tag == Single('}') then
      if root then Failed(Extraneous(inp.stream.tokens[k]))
      else
        var j :- Next(inp, k);
        Done(Block(kept.nodes, j))
    else
      Failed(Unimplemented(inp.stream.tokens[k]))
  }

  /**
    `parser_parse_scope` on the program's root scope: the first
    `parser_get_token` call is the stream's first token (code/code_parser.c:761).
   */
  function Parse(inp: Input): (r: Outcome<seq<Node>>)
    requires Valid(inp)
    ensures |inp.stream.tokens| == 0 ==> r == (if inp.stream.halt.Stalls? then Hangs else Failed(inp.stream.halt.failure))
    ensures r.Failed? ==> Explained(inp, r.failure)
    ensures r.Hangs? ==> inp.stream.halt.Stalls?
  {
    if |inp.stream.tokens| == 0 then
      if inp.stream.halt.Stalls? then Hangs else Failed(inp.stream.halt.failure)
    else
      var program :- Statements(inp, true, EmptyBuffer(), 0);
      Done(program.nodes)
  }

  /** `parser_parse`: tokenize the source with the current lexer, then parse the root scope (code/code_parser.c:880-904). */
  function ParseSource(src: seq<byte>): (r: Outcome<seq<Node>>)
    ensures r.Failed? ==> IsParserFailure(r.failure) || Tokenize(Current, src).halt == Breaks(r.failure)
  {
    var inp := Input(src, Tokenize(Current, src));
    TokenizedIsValid(inp);
    Parse(inp)
  }

  /** What the lexer promises about its stream is what the parser needs of it. */
  lemma TokenizedIsValid(inp: Input)
    requires StreamFrom(inp.stream, |inp.source|, 0)
    ensures Valid(inp)
  {
    var tokens := inp.stream.tokens;
    forall k | 0 <= k < |tokens| - 1
      ensures TagAt(tokens, k) != Etx
    {
      assert tokens[k].tag != Etx;
    }
  }
}

=== FILE: parser_facts.dfy ===
/**
  What the parser builds for small token sequences: precedence and
  associativity of binary operators, invocation by juxtaposition, the
  ternary shapes, scopes, and the failures of the scope builder.

  Each lemma fixes the tags of a few consecutive tokens and holds for any
  source and any token spans; `Leaf(inp, k)` is the identifier node for
  token `k`.
 */
module ParserFacts {
  import opened Tokens
  import opened Outcomes
  import opened Lexer
  import opened Nodes
  import opened Parser

  function Leaf(inp: Input, k: nat): Node
    requires Valid(inp) && k < |inp.stream.tokens|
  {
    IdentifierNode(Bytes(inp, k))
  }

  /** A token that becomes a plain binary node after an operand. */
  predicate IsBinary(t: TokenTag) {
    var (op, ternary) := Infix(t);
    !ternary && op != Invocation && Precedence(op) > 0
  }

  /**
    What the operator tables promise (code/code_parser.c:400-463, 515-518,
    594-640): only `->` and `?` take a third part; `.` is the only operator
    that never binds; every prefix operator binds tighter than every infix
    operator except `->`; and no token after an operand stands for a
    bracket or a prefix operator.
   */
  lemma OperatorTable(t: TokenTag, r: char)
    ensures Infix(t).1 <==> t == MinusSignGreaterThanSign || t == Single('?')
    ensures Precedence(Infix(t).0) == 0 <==> t == Single('.')
    ensures Prefix(r).Some? && Infix(t).0 != Procedure ==> Precedence(Infix(t).0) < Precedence(Prefix(r).value)
    ensures Prefix(r).Some? ==> Precedence(Prefix(r).value) < Precedence(Procedure)
    ensures Infix(t).0 !in {Subexpression, Indexation, LogicalNegation, Negation, BitwiseNegation, Reference}
  {
  }

  /*
    The step lemmas below (`IdentifierOperand`, `BindBinary`, `InvokeStep`,
    `TernaryStep`, `BindSkips`, `PrefixStep`) each unfold one branch of the
    parser's definition.  They are rewriting steps for the examples, not
    guarantees beyond the definition; the all-inputs statements about the
    parser are `PrecedenceFacts.ParseNodeRespects` and `TwoOperators`.
   */

  /** An identifier is an operand one token long (code/code_parser.c:536-541, 813-820). */
  lemma IdentifierOperand(inp: Input, p: nat, i: nat)
    requires Valid(inp) && i + 1 < |inp.stream.tokens| && Tag(inp, i) == Identifier
    ensures Operand(inp, p, i) == Done(Step(Some(Leaf(inp, i)), i + 1))
  {
  }

  /** An identifier before a terminator parses to itself at any threshold. */
  lemma LoneIdentifier(inp: Input, p: nat, i: nat)
    requires Valid(inp) && i + 1 < |inp.stream.tokens| && Tag(inp, i) == Identifier
    requires IsTerminator(Tag(inp, i + 1))
    ensures ParseNode(inp, p, i) == Done(Step(Some(Leaf(inp, i)), i + 1))
  {
    IdentifierOperand(inp, p, i);
  }

  /**
    `x op y`: the operator binds exactly when its precedence is above the
    threshold; otherwise the parse stops before it (code/code_parser.c:640-651).
   */
  lemma OneOperator(inp: Input, p: nat, i: nat)
    requires Valid(inp) && i + 3 < |inp.stream.tokens|
    requires Tag(inp, i) == Identifier && IsBinary(Tag(inp, i + 1)) && Tag(inp, i + 2) == Identifier
    requires IsTerminator(Tag(inp, i + 3))
    ensures var op := Infix(Tag(inp, i + 1)).0;
      ParseNode(inp, p, i) ==
        if Precedence(op) > p then Done(Step(Some(BinaryNode(op, Leaf(inp, i), Some(Leaf(inp, i + 2)))), i + 3))
        else Done(Step(Some(Leaf(inp, i)), i + 1))
  {
    if Precedence(Infix(Tag(inp, i + 1)).0) > p {
      OperatorBinds(inp, p, i);
    } else {
      assert Stops(Tag(inp, i + 1), p);
      IdentifierStep(inp, p, i);
    }
  }

  lemma OperatorBinds(inp: Input, p: nat, i: nat)
    requires Valid(inp) && i + 3 < |inp.stream.tokens|
    requires Tag(inp, i) == Identifier && IsBinary(Tag(inp, i + 1)) && Tag(inp, i + 2) == Identifier
    requires IsTerminator(Tag(inp, i + 3)) && Precedence(Infix(Tag(inp, i + 1)).0) > p
    ensures var op := Infix(Tag(inp, i + 1)).0;
      ParseNode(inp, p, i) == Done(Step(Some(BinaryNode(op, Leaf(inp, i), Some(Leaf(inp, i + 2)))), i + 3))
  {
    var op := Infix(Tag(inp, i + 1)).0;
    var x := Leaf(inp, i);
    var bound := BinaryNode(op, x, Some(Leaf(inp, i + 2)));
    assert ParseNode(inp, Precedence(op), i + 2) == Done(Step(Some(Leaf(inp, i + 2)), i + 3)) by {
      LoneIdentifier(inp, Precedence(op), i + 2);
    }
    assert Climb(inp, p, x, i + 1) == Climb(inp, p, bound, i + 3) by {
      BinaryStep(inp, p, x, i + 1);
    }
    IdentifierStep(inp, p, i);
  }

  /**
    One turn of the operator loop for a binary operator that binds: the
    operator is skipped and the right operand parsed at its precedence
    (code/code_parser.c:640-651, 676).
   */
  lemma BinaryStep(inp: Input, p: nat, left: Node, i: nat)
    requires Valid(inp) && i + 1 < |inp.stream.tokens| && IsBinary(Tag(inp, i))
    requires Precedence(Infix(Tag(inp, i)).0) > p
    requires ParseNode(inp, Precedence(Infix(Tag(inp, i)).0), i + 1).Done?
    ensures var op := Infix(Tag(inp, i)).0;
      var right := ParseNode(inp, Precedence(op), i + 1).value;
      Climb(inp, p, left, i) == Climb(inp, p, BinaryNode(op, left, right.node), right.next)
  {
    var tag := Tag(inp, i);
    assert !IsTerminator(tag);
    BindingStep(inp, p, left, i, Infix(tag).0);
  }

  lemma BindingStep(inp: Input, p: nat, left: Node, i: nat, op: NodeTag)
    requires Valid(inp) && i + 1 < |inp.stream.tokens| && !IsTerminator(Tag(inp, i))
    requires Infix(Tag(inp, i)) == (op, false) && op != Invocation && Precedence(op) > p
    requires ParseNode(inp, Precedence(op), i + 1).Done?
    ensures var right := ParseNode(inp, Precedence(op), i + 1).value;
      Climb(inp, p, left, i) == Climb(inp, p, BinaryNode(op, left, right.node), right.next)
  {
    ClimbBinds(inp, p, left, i);
    BindBinary(inp, p, left, i, op);
  }

  lemma ClimbBindsTo(inp: Input, p: nat, left: Node, i: nat, op: NodeTag, ternary: bool)
    requires Valid(inp) && i < |inp.stream.tokens| && !IsTerminator(Tag(inp, i))
    requires Infix(Tag(inp, i)) == (op, ternary) && Precedence(op) > p
    ensures Climb(inp, p, left, i) == Bind(inp, p, left, i, op, ternary)
  {
  }

  /** The loop test passes on to the loop body when the operator binds above `p`. */
  lemma ClimbBinds(inp: Input, p: nat, left: Node, i: nat)
    requires Valid(inp) && i < |inp.stream.tokens| && !Stops(Tag(inp, i), p)
    ensures Climb(inp, p, left, i) == Bind(inp, p, left, i, Infix(Tag(inp, i)).0, Infix(Tag(inp, i)).1)
  {
  }

  /** The loop body for a binary operator: skip it, parse the right operand, then test again (code/code_parser.c:640-651, 676). */
  lemma BindBinary(inp: Input, p: nat, left: Node, i: nat, op: NodeTag)
    requires Valid(inp) && i + 1 < |inp.stream.tokens| && !IsTerminator(Tag(inp, i))
    requires Infix(Tag(inp, i)) == (op, false) && op != Invocation && Precedence(op) > p
    requires ParseNode(inp, Precedence(op), i + 1).Done?
    ensures var right := ParseNode(inp, Precedence(op), i + 1).value;
      Bind(inp, p, left, i, op, false) == Climb(inp, p, BinaryNode(op, left, right.node), right.next)
  {
    var right := ParseNode(inp, Precedence(op), i + 1).value;
    assert Bind(inp, p, left, i, op, false) == Join(inp, p, left, op, false, right) by {
      BindSkips(inp, p, left, i, op, false, right);
    }
  }

  /** An identifier operand followed by the operator loop. */
  lemma IdentifierStep(inp: Input, p: nat, i: nat)
    requires Valid(inp) && i + 1 < |inp.stream.tokens| && Tag(inp, i) == Identifier
    ensures ParseNode(inp, p, i) == Climb(inp, p, Leaf(inp, i), i + 1)
  {
    IdentifierOperand(inp, p, i);
  }

  /** The token sequence `x op1 y op2 z` followed by a terminator, at `i`. */
  predicate TwoOperatorInput(inp: Input, i: nat) {
    && Valid(inp) && i + 5 < |inp.stream.tokens|
    && Tag(inp, i) == Identifier && IsBinary(Tag(inp, i + 1)) && Tag(inp, i + 2) == Identifier
    && IsBinary(Tag(inp, i + 3)) && Tag(inp, i + 4) == Identifier && IsTerminator(Tag(inp, i + 5))
  }

  /**
    `x op1 y op2 z`: the second operator takes `y` when it binds more
    tightly than the first; with equal or lower precedence the first
    operation becomes its left operand, so equal precedences associate to
    the left (code/code_parser.c:640-679).
   */
  lemma TwoOperators(inp: Input, i: nat)
    requires TwoOperatorInput(inp, i)
    ensures var op1, op2 := Infix(Tag(inp, i + 1)).0, Infix(Tag(inp, i + 3)).0;
      var x, y, z := Leaf(inp, i), Leaf(inp, i + 2), Leaf(inp, i + 4);
      ParseNode(inp, 0, i) ==
        if Precedence(op1) < Precedence(op2) then Done(Step(Some(BinaryNode(op1, x, Some(BinaryNode(op2, y, Some(z))))), i + 5))
        else Done(Step(Some(BinaryNode(op2, BinaryNode(op1, x, Some(y)), Some(z))), i + 5))
  {
    var op1, op2 := Infix(Tag(inp, i + 1)).0, Infix(Tag(inp, i + 3)).0;
    if Precedence(op1) < Precedence(op2) {
      TighterNests(inp, i);
    } else {
      LooserAssociatesLeft(inp, i);
    }
  }

  lemma TighterNests(inp: Input, i: nat)
    requires TwoOperatorInput(inp, i)
    requires Precedence(Infix(Tag(inp, i + 1)).0) < Precedence(Infix(Tag(inp, i + 3)).0)
    ensures var op1, op2 := Infix(Tag(inp, i + 1)).0, Infix(Tag(inp, i + 3)).0;
      ParseNode(inp, 0, i)
        == Done(Step(Some(BinaryNode(op1, Leaf(inp, i), Some(BinaryNode(op2, Leaf(inp, i + 2), Some(Leaf(inp, i + 4)))))), i + 5))
  {
    var op1, op2 := Infix(Tag(inp, i + 1)).0, Infix(Tag(inp, i + 3)).0;
    var x, y, z := Leaf(inp, i), Leaf(inp, i + 2), Leaf(inp, i + 4);
    var right := BinaryNode(op2, y, Some(z));
    var whole := BinaryNode(op1, x, Some(right));
    assert ParseNode(inp, Precedence(op1), i + 2) == Done(Step(Some(right), i + 5)) by {
      OneOperator(inp, Precedence(op1), i + 2);
    }
    assert Climb(inp, 0, x, i + 1) == Climb(inp, 0, whole, i + 5) by {
      BinaryStep(inp, 0, x, i + 1);
    }
    IdentifierStep(inp, 0, i);
  }

  lemma LooserAssociatesLeft(inp: Input, i: nat)
    requires TwoOperatorInput(inp, i)
    requires Precedence(Infix(Tag(inp, i + 1)).0) >= Precedence(Infix(Tag(inp, i + 3)).0)
    ensures var op1, op2 := Infix(Tag(inp, i + 1)).0, Infix(Tag(inp, i + 3)).0;
      ParseNode(inp, 0, i)
        == Done(Step(Some(BinaryNode(op2, BinaryNode(op1, Leaf(inp, i), Some(Leaf(inp, i + 2))), Some(Leaf(inp, i + 4)))), i + 5))
  {
    var op1, op2 := Infix(Tag(inp, i + 1)).0, Infix(Tag(inp, i + 3)).0;
    var x, y, z := Leaf(inp, i), Leaf(inp, i + 2), Leaf(inp, i + 4);
    var first := BinaryNode(op1, x, Some(y));
    var whole := BinaryNode(op2, first, Some(z));
    assert ParseNode(inp, Precedence(op1), i + 2) == Done(Step(Some(y), i + 3)) by {
      OneOperator(inp, Precedence(op1), i + 2);
    }
    assert Climb(inp, 0, x, i + 1) == Climb(inp, 0, first, i + 3) by {
      BinaryStep(inp, 0, x, i + 1);
    }
    assert ParseNode(inp, Precedence(op2), i + 4) == Done(Step(Some(z), i + 5)) by {
      LoneIdentifier(inp, Precedence(op2), i + 4);
    }
    assert Climb(inp, 0, first, i + 3) == Climb(inp, 0, whole, i + 5) by {
      BinaryStep(inp, 0, first, i + 3);
    }
    IdentifierStep(inp, 0, i);
  }

  /**
    `f x`: an operand right after another is an invocation, the invisible
    operator of precedence 30, and the argument is parsed above it
    (code/code_parser.c:636-651).
   */
  lemma Juxtaposition(inp: Input, i: nat)
    requires Valid(inp) && i + 2 < |inp.stream.tokens|
    requires Tag(inp, i) == Identifier && Tag(inp, i + 1) == Identifier && IsTerminator(Tag(inp, i + 2))
    ensures ParseNode(inp, 0, i) == Done(Step(Some(BinaryNode(Invocation, Leaf(inp, i), Some(Leaf(inp, i + 1)))), i + 2))
  {
    var f, x := Leaf(inp, i), Leaf(inp, i + 1);
    assert ParseNode(inp, Precedence(Invocation), i + 1) == Done(Step(Some(x), i + 2)) by {
      LoneIdentifier(inp, Precedence(Invocation), i + 1);
    }
    assert Climb(inp, 0, f, i + 1) == Climb(inp, 0, BinaryNode(Invocation, f, Some(x)), i + 2) by {
      ClimbBinds(inp, 0, f, i + 1);
      InvokeStep(inp, 0, f, i + 1);
    }
    IdentifierStep(inp, 0, i);
  }

  /** The invocation branch of the loop body does not skip a token: the argument starts at the current one. */
  lemma InvokeStep(inp: Input, p: nat, left: Node, i: nat)
    requires Valid(inp) && i < |inp.stream.tokens| && !IsTerminator(Tag(inp, i))
    requires Infix(Tag(inp, i)) == (Invocation, false) && Precedence(Invocation) > p
    requires ParseNode(inp, Precedence(Invocation), i).Done?
    ensures var right := ParseNode(inp, Precedence(Invocation), i).value;
      Bind(inp, p, left, i, Invocation, false) == Climb(inp, p, BinaryNode(Invocation, left, right.node), right.next)
  {
  }

  /** One turn of the loop body for `->` or `?`: skip the operator, the middle operand, then the third part. */
  lemma TernaryStep(inp: Input, p: nat, left: Node, i: nat, op: NodeTag, right: Step, third: Step)
    requires Valid(inp) && i + 1 < |inp.stream.tokens| && !IsTerminator(Tag(inp, i))
    requires op != Invocation && Precedence(op) > p
    requires ParseNode(inp, Precedence(op), i + 1) == Done(right)
    requires Third(inp, Precedence(op), right.next) == Done(third)
    ensures Bind(inp, p, left, i, op, true) == Climb(inp, p, TernaryNode(op, left, right.node, third.node), third.next)
  {
    assert Bind(inp, p, left, i, op, true) == Join(inp, p, left, op, true, right) by {
      BindSkips(inp, p, left, i, op, true, right);
    }
  }

  /** Skipping a visible operator moves to the token after it before the right operand is parsed. */
  lemma BindSkips(inp: Input, p: nat, left: Node, i: nat, op: NodeTag, ternary: bool, right: Step)
    requires Valid(inp) && i + 1 < |inp.stream.tokens| && !IsTerminator(Tag(inp, i))
    requires op != Invocation && Precedence(op) > p
    requires ParseNode(inp, Precedence(op), i + 1) == Done(right)
    ensures Bind(inp, p, left, i, op, ternary) == Join(inp, p, left, op, ternary, right)
  {
    var j := Next(inp, i);
    assert j == Done(i + 1);
    assert ParseNode(inp, Precedence(op), j.value) == Done(right);
  }

  /** The third part is absent unless a `{` or `:` follows the middle operand. */
  lemma NoThird(inp: Input, p: nat, i: nat)
    requires Valid(inp) && i < |inp.stream.tokens| && IsTerminator(Tag(inp, i))
    ensures Third(inp, p, i) == Done(Step(None, i))
  {
  }

  /** A ternary node whose parts end before a terminator completes the loop at any threshold below it. */
  lemma TernaryClimb(inp: Input, p: nat, left: Node, i: nat, op: NodeTag, right: Step, third: Step)
    requires Valid(inp) && i + 1 < |inp.stream.tokens| && !IsTerminator(Tag(inp, i))
    requires Infix(Tag(inp, i)) == (op, true) && op != Invocation && Precedence(op) > p
    requires ParseNode(inp, Precedence(op), i + 1) == Done(right)
    requires Third(inp, Precedence(op), right.next) == Done(third)
    requires IsTerminator(Tag(inp, third.next))
    ensures Climb(inp, p, left, i) == Done(Step(Some(TernaryNode(op, left, right.node, third.node)), third.next))
  {
    assert Climb(inp, p, left, i) == Bind(inp, p, left, i, op, true) by {
      ClimbBindsTo(inp, p, left, i, op, true);
    }
    TernaryStep(inp, p, left, i, op, right, third);
  }

  /**
    `a ? b : c`: `?` takes its middle part at its own precedence 10, where
    the declaration operator `:` of precedence 20 still binds, so the
    condition holds `b : c` as one declaration and no third part
    (code/code_parser.c:633-673).
   */
  lemma ConditionTakesDeclaration(inp: Input, i: nat)
    requires Valid(inp) && i + 5 < |inp.stream.tokens|
    requires Tag(inp, i) == Identifier && Tag(inp, i + 1) == Single('?') && Tag(inp, i + 2) == Identifier
    requires Tag(inp, i + 3) == Single(':') && Tag(inp, i + 4) == Identifier && IsTerminator(Tag(inp, i + 5))
    ensures ParseNode(inp, 0, i)
      == Done(Step(Some(TernaryNode(Condition, Leaf(inp, i),
                                    Some(BinaryNode(Declaration, Leaf(inp, i + 2), Some(Leaf(inp, i + 4)))), None)), i + 5))
  {
    ConditionClimb(inp, Leaf(inp, i), i + 1);
    IdentifierStep(inp, 0, i);
  }

  lemma ConditionClimb(inp: Input, left: Node, i: nat)
    requires Valid(inp) && i + 4 < |inp.stream.tokens| && Tag(inp, i) == Single('?') && Tag(inp, i + 1) == Identifier
    requires Tag(inp, i + 2) == Single(':') && Tag(inp, i + 3) == Identifier && IsTerminator(Tag(inp, i + 4))
    ensures Climb(inp, 0, left, i)
      == Done(Step(Some(TernaryNode(Condition, left, Some(BinaryNode(Declaration, Leaf(inp, i + 1), Some(Leaf(inp, i + 3)))), None)), i + 4))
  {
    ConditionParts(inp, i + 1);
    TernaryClimb(inp, 0, left, i, Condition, Step(Some(BinaryNode(Declaration, Leaf(inp, i + 1), Some(Leaf(inp, i + 3)))), i + 4), Step(None, i + 4));
  }

  /** The middle part of `?` is the whole declaration `b : c`, and no third part follows it. */
  lemma ConditionParts(inp: Input, i: nat)
    requires Valid(inp) && i + 3 < |inp.stream.tokens| && Tag(inp, i) == Identifier
    requires Tag(inp, i + 1) == Single(':') && Tag(inp, i + 2) == Identifier && IsTerminator(Tag(inp, i + 3))
    ensures ParseNode(inp, 10, i) == Done(Step(Some(BinaryNode(Declaration, Leaf(inp, i), Some(Leaf(inp, i + 2)))), i + 3))
    ensures Third(inp, 10, i + 3) == Done(Step(None, i + 3))
  {
    OperatorBinds(inp, 10, i);
    NoThird(inp, 10, i + 3);
  }

  /**
    `x -> y : z`: the procedure operator takes its parameter part and, after
    `:`, its result part, both at precedence 150 (code/code_parser.c:653-673).
   */
  lemma ProcedureWithResult(inp: Input, i: nat)
    requires Valid(inp) && i + 5 < |inp.stream.tokens|
    requires Tag(inp, i) == Identifier && Tag(inp, i + 1) == MinusSignGreaterThanSign && Tag(inp, i + 2) == Identifier
    requires Tag(inp, i + 3) == Single(':') && Tag(inp, i + 4) == Identifier && IsTerminator(Tag(inp, i + 5))
    ensures ParseNode(inp, 0, i)
      == Done(Step(Some(TernaryNode(Procedure, Leaf(inp, i), Some(Leaf(inp, i + 2)), Some(Leaf(inp, i + 4)))), i + 5))
  {
    ProcedureParts(inp, i + 2);
    TernaryClimb(inp, 0, Leaf(inp, i), i + 1, Procedure, Step(Some(Leaf(inp, i + 2)), i + 3), Step(Some(Leaf(inp, i + 4)), i + 5));
    IdentifierStep(inp, 0, i);
  }

  /** The parameter part `y` stops at `:`, and the result part follows it. */
  lemma ProcedureParts(inp: Input, i: nat)
    requires Valid(inp) && i + 3 < |inp.stream.tokens| && Tag(inp, i) == Identifier
    requires Tag(inp, i + 1) == Single(':') && Tag(inp, i + 2) == Identifier && IsTerminator(Tag(inp, i + 3))
    ensures ParseNode(inp, 150, i) == Done(Step(Some(Leaf(inp, i)), i + 1))
    ensures Third(inp, 150, i + 1) == Done(Step(Some(Leaf(inp, i + 2)), i + 3))
  {
    assert Stops(Tag(inp, i + 1), 150);
    IdentifierStep(inp, 150, i);
    ResultPart(inp, 150, i + 1);
  }

  /** After `:`, the third part is the operand that follows. */
  lemma ResultPart(inp: Input, p: nat, i: nat)
    requires Valid(inp) && i + 2 < |inp.stream.tokens| && Tag(inp, i) == Single(':')
    requires Tag(inp, i + 1) == Identifier && IsTerminator(Tag(inp, i + 2))
    ensures Third(inp, p, i) == Done(Step(Some(Leaf(inp, i + 1)), i + 2))
  {
    assert Next(inp, i) == Done(i + 1);
    LoneIdentifier(inp, p, i + 1);
  }

  /**
    `.` has no entry in the precedence table, so it never binds: the parse
    of `x . y` stops before the `.` at every threshold
    (code/code_parser.c:400-463, 640-642).
   */
  lemma ResolutionNeverBinds(inp: Input, p: nat, i: nat)
    requires Valid(inp) && i + 1 < |inp.stream.tokens| && Tag(inp, i) == Identifier && Tag(inp, i + 1) == Single('.')
    ensures ParseNode(inp, p, i) == Done(Step(Some(Leaf(inp, i)), i + 1))
  {
    assert Stops(Tag(inp, i + 1), p);
    IdentifierStep(inp, p, i);
  }

  /**
    A pragma `# name` yields no node and leaves the name as the current
    token (code/code_parser.c:482-492).
   */
  lemma PragmaLeavesName(inp: Input, p: nat, i: nat)
    requires Valid(inp) && i + 1 < |inp.stream.tokens| && Tag(inp, i) == Single('#') && Tag(inp, i + 1) == Identifier
    ensures ParseNode(inp, p, i) == Done(Step(None, i + 1))
  {
    assert Operand(inp, p, i) == Done(Step(None, i + 1)) by {
      assert Next(inp, i) == Done(i + 1);
    }
  }

  /** A pragma must be followed by a name (code/code_parser.c:483, 391-395). */
  lemma PragmaNeedsName(inp: Input, p: nat, i: nat)
    requires Valid(inp) && i + 1 < |inp.stream.tokens| && Tag(inp, i) == Single('#') && Tag(inp, i + 1) != Identifier
    ensures ParseNode(inp, p, i) == Failed(ExpectedToken(Identifier, inp.stream.tokens[i + 1]))
  {
    assert Operand(inp, p, i) == Failed(ExpectedToken(Identifier, inp.stream.tokens[i + 1])) by {
      assert Next(inp, i) == Done(i + 1);
    }
  }

  /** `( x ]`: a parenthesis must be closed by its own bracket (code/code_parser.c:495-503). */
  lemma MismatchedBracket(inp: Input, p: nat, i: nat)
    requires Valid(inp) && i + 2 < |inp.stream.tokens|
    requires Tag(inp, i) == Single('(') && Tag(inp, i + 1) == Identifier && Tag(inp, i + 2) == Single(']')
    ensures ParseNode(inp, p, i) == Failed(ExpectedToken(Single(')'), inp.stream.tokens[i + 2]))
  {
    assert Operand(inp, p, i) == Failed(ExpectedToken(Single(')'), inp.stream.tokens[i + 2])) by {
      assert Next(inp, i) == Done(i + 1);
      LoneIdentifier(inp, 0, i + 1);
    }
  }

  /** `( x )` is a subexpression node around `x`, and the parse continues after the `)`. */
  lemma Parenthesized(inp: Input, p: nat, i: nat)
    requires Valid(inp) && i + 3 < |inp.stream.tokens|
    requires Tag(inp, i) == Single('(') && Tag(inp, i + 1) == Identifier && Tag(inp, i + 2) == Single(')')
    ensures Operand(inp, p, i) == Done(Step(Some(UnaryNode(Subexpression, Some(Leaf(inp, i + 1)))), i + 3))
  {
    assert Next(inp, i) == Done(i + 1);
    assert Next(inp, i + 2) == Done(i + 3);
    LoneIdentifier(inp, 0, i + 1);
  }

  /**
    `- x + y`: a prefix operator takes its operand at precedence 140, above
    every binary operator, so it applies to `x` alone (code/code_parser.c:513-522).
   */
  lemma PrefixBindsTighter(inp: Input, i: nat)
    requires Valid(inp) && i + 4 < |inp.stream.tokens|
    requires Tag(inp, i) == Single('-') && Tag(inp, i + 1) == Identifier && Tag(inp, i + 2) == Single('+')
    requires Tag(inp, i + 3) == Identifier && IsTerminator(Tag(inp, i + 4))
    ensures ParseNode(inp, 0, i)
      == Done(Step(Some(BinaryNode(Addition, UnaryNode(Negation, Some(Leaf(inp, i + 1))), Some(Leaf(inp, i + 3)))), i + 4))
  {
    var negation := UnaryNode(Negation, Some(Leaf(inp, i + 1)));
    assert Operand(inp, 0, i) == Done(Step(Some(negation), i + 2)) by {
      PrefixOperand(inp, i);
    }
    assert Climb(inp, 0, negation, i + 2) == Done(Step(Some(BinaryNode(Addition, negation, Some(Leaf(inp, i + 3)))), i + 4)) by {
      LoneIdentifier(inp, Precedence(Addition), i + 3);
      BinaryStep(inp, 0, negation, i + 2);
    }
  }

  lemma PrefixOperand(inp: Input, i: nat)
    requires Valid(inp) && i + 2 < |inp.stream.tokens|
    requires Tag(inp, i) == Single('-') && Tag(inp, i + 1) == Identifier && Tag(inp, i + 2) == Single('+')
    ensures Operand(inp, 0, i) == Done(Step(Some(UnaryNode(Negation, Some(Leaf(inp, i + 1)))), i + 2))
  {
    assert ParseNode(inp, Precedence(Negation), i + 1) == Done(Step(Some(Leaf(inp, i + 1)), i + 2)) by {
      assert Stops(Tag(inp, i + 2), Precedence(Negation));
      IdentifierStep(inp, Precedence(Negation), i + 1);
    }
    PrefixStep(inp, 0, i, '-', Negation, Step(Some(Leaf(inp, i + 1)), i + 2));
  }

  /** A prefix operator makes a unary node of the operand parsed after it at the operator's precedence. */
  lemma PrefixStep(inp: Input, p: nat, i: nat, r: char, op: NodeTag, s: Step)
    requires Valid(inp) && i + 1 < |inp.stream.tokens| && Tag(inp, i) == Single(r) && Prefix(r) == Some(op)
    requires ParseNode(inp, Precedence(op), i + 1) == Done(s)
    ensures Operand(inp, p, i) == Done(Step(Some(UnaryNode(op, s.node)), s.next))
  {
    OperandPrefixed(inp, p, i, op);
    var j := Next(inp, i);
    assert j == Done(i + 1);
    assert ParseNode(inp, Precedence(op), j.value) == Done(s);
  }

  /** An operand that starts with a prefix operator is that operator's unary node. */
  lemma OperandPrefixed(inp: Input, p: nat, i: nat, op: NodeTag)
    requires Valid(inp) && i < |inp.stream.tokens| && Tag(inp, i).Single? && Prefix(Tag(inp, i).rune) == Some(op)
    ensures !IsTerminator(Tag(inp, i)) && Operand(inp, p, i) == Prefixed(inp, i, op)
  {
    var tag := Tag(inp, i);
    assert !IsTerminator(tag) && tag != Single('=') && tag != Single('#') && tag != Single('(') && tag != Single('[');
  }
}

=== FILE: precedence_facts.dfy ===
/**
  The precedence discipline of `parser_parse_node` for every input: a parse
  at threshold `p` returns a node whose root binds more tightly than `p`,
  and it stops at a token that cannot bind above `p`
  (code/code_parser.c:473-682).

  The lemmas follow the calls of the parser functions and use the same
  termination measure.
 */
module PrecedenceFacts {
  import opened Tokens
  import opened Outcomes
  import opened Nodes
  import opened Parser

  /** What a finished parse at threshold `p` guarantees. */
  predicate Respects(inp: Input, p: nat, r: Outcome<Step>)
    requires Valid(inp)
  {
    r.Done? && r.value.node.Some? && r.value.next < |inp.stream.tokens| ==>
      Above(r.value.node.value, p) && Stops(Tag(inp, r.value.next), p)
  }

  lemma {:induction false} ParseNodeRespects(inp: Input, p: nat, i: nat)
    requires Valid(inp) && i < |inp.stream.tokens|
    ensures Respects(inp, p, ParseNode(inp, p, i))
    decreases |inp.stream.tokens| - i, 3
  {
    var operand := Operand(inp, p, i);
    if operand.Done? && operand.value.node.Some? {
      OperandAbove(inp, p, i);
      ClimbRespects(inp, p, operand.value.node.value, operand.value.next);
    }
  }

  /** An operand is never a binary or ternary node. */
  lemma OperandAbove(inp: Input, p: nat, i: nat)
    requires Valid(inp) && i < |inp.stream.tokens|
    ensures var r := Operand(inp, p, i);
      r.Done? && r.value.node.Some? ==> !r.value.node.value.BinaryNode? && !r.value.node.value.TernaryNode?
  {
  }

  /** The loop keeps a root above `p` and stops only where the operator does not bind above `p`. */
  lemma {:induction false} ClimbRespects(inp: Input, p: nat, left: Node, i: nat)
    requires Valid(inp) && i < |inp.stream.tokens| && Above(left, p)
    ensures Respects(inp, p, Climb(inp, p, left, i))
    decreases |inp.stream.tokens| - i, 5
  {
    var tag := Tag(inp, i);
    var (op, ternary) := Infix(tag);
    if !(IsTerminator(tag) || Precedence(op) <= p) {
      BindRespects(inp, p, left, i, op, ternary);
    }
  }

  lemma {:induction false} BindRespects(inp: Input, p: nat, left: Node, i: nat, op: NodeTag, ternary: bool)
    requires Valid(inp) && i < |inp.stream.tokens| && !IsTerminator(Tag(inp, i))
    requires Precedence(op) > p && (op == Invocation ==> Tag(inp, i) != Single('='))
    ensures Respects(inp, p, Bind(inp, p, left, i, op, ternary))
    decreases |inp.stream.tokens| - i, 4
  {
    var j := if op != Invocation then Next(inp, i) else Done(i);
    if j.Done? {
      var right := ParseNode(inp, Precedence(op), j.value);
      if right.Done? {
        JoinRespects(inp, p, left, op, ternary, right.value);
      }
    }
  }

  lemma {:induction false} JoinRespects(inp: Input, p: nat, left: Node, op: NodeTag, ternary: bool, right: Step)
    requires Valid(inp) && right.next < |inp.stream.tokens| && Precedence(op) > p
    ensures Respects(inp, p, Join(inp, p, left, op, ternary, right))
    decreases |inp.stream.tokens| - right.next, 7
  {
    if ternary {
      TernaryRespects(inp, p, left, op, right);
    } else {
      ClimbRespects(inp, p, BinaryNode(op, left, right.node), right.next);
    }
  }

  lemma {:induction false} TernaryRespects(inp: Input, p: nat, left: Node, op: NodeTag, right: Step)
    requires Valid(inp) && right.next < |inp.stream.tokens| && Precedence(op) > p
    ensures Respects(inp, p, Join(inp, p, left, op, true, right))
    decreases |inp.stream.tokens| - right.next, 6
  {
    var third := Third(inp, Precedence(op), right.next);
    TernaryJoin(inp, p, left, op, right);
    if third.Done? {
      ClimbRespects(inp, p, TernaryNode(op, left, right.node, third.value.node), third.value.next);
    }
  }

  /** A ternary join that finishes has read its third part and climbed on with the ternary node. */
  lemma TernaryJoin(inp: Input, p: nat, left: Node, op: NodeTag, right: Step)
    requires Valid(inp) && right.next < |inp.stream.tokens| && Precedence(op) > p
    ensures var third := Third(inp, Precedence(op), right.next);
      Join(inp, p, left, op, true, right).Done? ==>
        third.Done? && Join(inp, p, left, op, true, right)
          == Climb(inp, p, TernaryNode(op, left, right.node, third.value.node), third.value.next)
  {
  }
}

=== FILE: runes.dfy ===
/**
  The rune cursor of the parser: `parser_peek`, `parser_advance`, the rune
  classes and the initial state set by `parser_load`
  (code/code_parser.c:60-131; the same functions are in code/code.c:62-133).

  The cursor keeps the byte offset of the current rune, its width
  (`increment`) and the row/column a report would show.  The source is a
  byte sequence; the 0x03 byte the loader writes after it is not stored:
  peeking at or past the end yields rune 3 with width 0 instead.
 */
module Runes {
  import opened Utf8
  import opened Outcomes

  /** The end-of-text rune the loader's sentinel stands for. */
  const EndOfText: char := 3 as char

  predicate IsWhitespace(r: char) {
    ('\t' <= r <= '\r') || r == ' '
  }

  predicate IsLetter(r: char) {
    ('A' <= r <= 'Z') || ('a' <= r <= 'z')
  }

  predicate IsDigit(r: char) {
    '0' <= r <= '9'
  }

  /** The character a single byte stands for when read as a one-byte rune. */
  function CharOf(b: byte): char {
    b as int as char
  }

  datatype Cursor = Cursor(position: nat, row: nat, column: nat, rune: char, increment: nat)

  datatype Peeked = Peeked(rune: char, width: nat)

  /** Number of line feeds among the bytes. */
  function Newlines(s: seq<byte>): nat {
    if s == [] then 0 else Newlines(s[..|s| - 1]) + (if s[|s| - 1] == 10 then 1 else 0)
  }

  /** The cursor's rune is the one decoded at its position, or ETX at the end. */
  predicate Aligned(src: seq<byte>, c: Cursor) {
    && c.position + c.increment <= |src|
    && (c.position < |src| ==> Decode(src, c.position) == Rune(c.rune, c.increment))
    && (c.position >= |src| ==> c.rune == EndOfText && c.increment == 0)
  }

  /** Whether a byte starts a rune: a one-byte rune or the lead of a longer one, not a continuation byte. */
  predicate StartsRune(b: byte) {
    b < 0x80 || b >= 0xC0
  }

  /**
    The column of the rune at byte `p`: one more than the runes that start
    between the last line feed before `p` and `p`.
   */
  function Column(src: seq<byte>, p: nat): (n: nat)
    requires p <= |src|
    ensures n >= 1
  {
    if p == 0 || src[p - 1] == 10 then 1
    else Column(src, p - 1) + (if StartsRune(src[p - 1]) then 1 else 0)
  }

  /**
    Cursor invariant: aligned, the row counts the line feeds already passed
    and the column the runes since the last one.  At the end the column keeps
    growing with every advance, so there it is only bounded below.
   */
  predicate Wf(src: seq<byte>, c: Cursor) {
    && Aligned(src, c)
    && c.row == 1 + Newlines(src[..c.position])
    && (c.position < |src| ==> c.column == Column(src, c.position))
    && (c.position >= |src| ==> c.column >= Column(src, |src|))
    && c.column >= 1
  }

  /** Every byte from `p` on is a one-byte rune: such a source never fails to decode. */
  predicate AsciiFrom(src: seq<byte>, p: nat) {
    forall k | p <= k < |src| :: src[k] < 0x80
  }

  predicate AtEnd(src: seq<byte>, c: Cursor) {
    c.position >= |src|
  }

  /** Looks at the rune after the current one without moving (code/code_parser.c:60-80). */
  function Peek(src: seq<byte>, c: Cursor): (r: Outcome<Peeked>)
    ensures !r.Hangs?
    ensures var at := c.position + c.increment;
      && (at >= |src| ==> r == Done(Peeked(EndOfText, 0)))
      && (at < |src| && r.Done? ==> Decode(src, at) == Rune(r.value.rune, r.value.width))
      && (at < |src| && Decode(src, at).Malformed? ==> r.Failed?)
      && (at < |src| ==> (r.Done? <==> Decode(src, at).Rune?))
    ensures r.Failed? ==> r.failure.UnknownRune? && r.failure.beginning == c.position
                          && r.failure.beginning < r.failure.ending
  {
    var at := c.position + c.increment;
    if at >= |src| then
      Done(Peeked(EndOfText, 0))
    else
      match Decode(src, at)
      case Rune(rune, width) => Done(Peeked(rune, width))
      case Malformed(width) => Failed(UnknownRune(c.position, c.position + width, c.row, c.column))
  }

  lemma {:induction false} NewlinesAppend(a: seq<byte>, b: seq<byte>)
    ensures Newlines(a + b) == Newlines(a) + Newlines(b)
    decreases |b|
  {
    if b == [] {
      assert a + b == a;
    } else {
      assert (a + b)[..|a + b| - 1] == a + b[..|b| - 1];
      NewlinesAppend(a, b[..|b| - 1]);
    }
  }

  lemma {:induction false} NoNewlines(s: seq<byte>)
    requires forall j :: 0 <= j < |s| ==> s[j] >= 0x80
    ensures Newlines(s) == 0
    decreases |s|
  {
    if s != [] {
      NoNewlines(s[..|s| - 1]);
    }
  }

  /** Moving over the current rune passes a line feed exactly when that rune is one. */
  lemma {:induction false} RowStep(src: seq<byte>, c: Cursor)
    requires Aligned(src, c)
    ensures Newlines(src[..c.position + c.increment])
            == Newlines(src[..c.position]) + (if c.rune == '\n' then 1 else 0)
  {
    var p, w := c.position, c.increment;
    if p < |src| {
      assert src[..p + w] == src[..p] + src[p..p + w];
      NewlinesAppend(src[..p], src[p..p + w]);
      if w == 1 {
        assert src[p..p + w] == [src[p]];
        assert Newlines([src[p]]) == (if src[p] == 10 then 1 else 0) by {
          assert [src[p]][..0] == [];
        }
      } else {
        NoNewlines(src[p..p + w]);
      }
    }
  }

  /** Moving over the current rune starts a new line after a line feed, and otherwise counts one more rune. */
  lemma ColumnStep(src: seq<byte>, c: Cursor)
    requires Aligned(src, c) && c.position < |src|
    ensures Column(src, c.position + c.increment) == (if c.rune == '\n' then 1 else Column(src, c.position) + 1)
  {
    var p, w := c.position, c.increment;
    assert Decode(src, p) == Rune(c.rune, w);
    if c.rune != '\n' {
      RuneColumns(src, p, w, w);
    }
  }

  /** Inside a rune other than a line feed the column is one more than at its first byte. */
  lemma {:induction false} RuneColumns(src: seq<byte>, p: nat, w: nat, j: nat)
    requires p < |src| && Decode(src, p).Rune? && Decode(src, p).width == w && Decode(src, p).point != '\n'
    requires 1 <= j <= w
    ensures Column(src, p + j) == Column(src, p) + 1
    decreases j
  {
    if j > 1 {
      RuneColumns(src, p, w, j - 1);
    }
  }

  /** Moves to the next rune (code/code_parser.c:82-97). */
  function Advance(src: seq<byte>, c: Cursor): (r: Outcome<Cursor>)
    requires c.position + c.increment <= |src|
    ensures !r.Hangs?
    ensures r.Failed? ==> r.failure.UnknownRune?
    ensures r.Done? ==> Aligned(src, r.value)
    ensures r.Done? ==> r.value.position == c.position + c.increment
    ensures r.Done? ==> r.value.column == (if c.rune == '\n' then 1 else c.column + 1)
    ensures r.Done? && Wf(src, c) ==> Wf(src, r.value)
    ensures r.Done? <==> Peek(src, c).Done?
    ensures AsciiFrom(src, c.position) ==> r.Done?
  {
    var next :- Peek(src, c);
    var newline := c.rune == '\n';
    var moved := Cursor(c.position + c.increment,
                        if newline then c.row + 1 else c.row,
                        if newline then 1 else c.column + 1,
                        next.rune, next.width);
    if Aligned(src, c) then
      RowStep(src, c);
      if c.position < |src| then
        ColumnStep(src, c);
        Done(moved)
      else
        Done(moved)
    else
      Done(moved)
  }

  /** The cursor `parser_load` leaves: the first rune read, at row 1, column 1 (code/code_parser.c:126-130). */
  function Load(src: seq<byte>): (r: Outcome<Cursor>)
    ensures !r.Hangs?
    ensures r.Done? ==> Wf(src, r.value)
    ensures r.Done? ==> r.value.position == 0 && r.value.row == 1 && r.value.column == 1
    ensures r.Failed? <==> |src| > 0 && Decode(src, 0).Malformed?
  {
    Advance(src, Cursor(0, 0, 0, '\n', 0))
  }

  /** `n` consecutive calls of `parser_advance`. */
  function AdvanceTimes(src: seq<byte>, c: Cursor, n: nat): Outcome<Cursor>
    requires Aligned(src, c)
    decreases n
  {
    if n == 0 then Done(c)
    else
      var next :- Advance(src, c);
      AdvanceTimes(src, next, n - 1)
  }

  /** At the end of the source the cursor stays put: only the column keeps growing. */
  lemma {:induction false} EndIsFixedPoint(src: seq<byte>, c: Cursor, n: nat)
    requires Wf(src, c) && AtEnd(src, c)
    ensures AdvanceTimes(src, c, n) == Done(c.(column := c.column + n))
    decreases n
  {
    if n > 0 {
      var next := c.(column := c.column + 1);
      assert Advance(src, c) == Done(next);
      EndIsFixedPoint(src, next, n - 1);
    }
  }
}

=== FILE: scope_facts.dfy ===
/**
  What the scope builder makes of small token sequences: which statements
  it keeps, where a scope ends, and the failures of misplaced braces and
  of a scope that runs into `etx`.

  The first group takes one turn of the statement loop for a statement
  already parsed to `s`: each unfolds one branch of `Parser.Separator` and
  is a rewriting step, not a guarantee beyond the definition.  The
  examples after it chain those turns.
 */
module ScopeFacts {
  import opened Tokens
  import opened Outcomes
  import opened Nodes
  import opened Parser
  import opened ParserFacts

  /** After `;` the loop goes on with the statement's node kept, if it has one. */
  lemma StatementContinues(inp: Input, root: bool, b: NodeBuffer, i: nat, s: Step)
    requires Valid(inp) && i < |inp.stream.tokens| && b.Valid()
    requires ParseNode(inp, 0, i) == Done(s) && s.next + 1 < |inp.stream.tokens| && Tag(inp, s.next) == Single(';')
    ensures Statements(inp, root, b, i) == Statements(inp, root, Kept(b, s.node), s.next + 1)
  {
    var j := Next(inp, s.next);
    assert j == Done(s.next + 1);
    assert Separator(inp, root, Kept(b, s.node), s.next) == Statements(inp, root, Kept(b, s.node), j.value);
  }

  /** In a nested scope `}` ends the loop and is skipped. */
  lemma ScopeCloses(inp: Input, b: NodeBuffer, i: nat, s: Step)
    requires Valid(inp) && i < |inp.stream.tokens| && b.Valid()
    requires ParseNode(inp, 0, i) == Done(s) && s.next + 1 < |inp.stream.tokens| && Tag(inp, s.next) == Single('}')
    ensures Statements(inp, false, b, i) == Done(Block(Kept(b, s.node).nodes, s.next + 1))
  {
    assert Next(inp, s.next) == Done(s.next + 1);
  }

  /** In the root scope `etx` ends the loop and stays current. */
  lemma RootEnds(inp: Input, b: NodeBuffer, i: nat, s: Step)
    requires Valid(inp) && i < |inp.stream.tokens| && b.Valid()
    requires ParseNode(inp, 0, i) == Done(s) && Tag(inp, s.next) == Etx
    ensures Statements(inp, true, b, i) == Done(Block(Kept(b, s.node).nodes, s.next))
  {
    assert Next(inp, s.next) == Done(s.next);
  }

  /**
    An empty statement adds nothing: a `;` where a statement starts is
    skipped (code/code_parser.c:764-783).
   */
  lemma EmptyStatement(inp: Input, root: bool, b: NodeBuffer, i: nat)
    requires Valid(inp) && i + 1 < |inp.stream.tokens| && b.Valid() && Tag(inp, i) == Single(';')
    ensures Statements(inp, root, b, i) == Statements(inp, root, b, i + 1)
  {
    StatementContinues(inp, root, b, i, Step(None, i));
  }

  /**
    `{ }` is a scope with no statements, and `{ x }` one with the single
    node `x`; the token after the `}` is current (code/code_parser.c:752-811).
   */
  lemma EmptyScope(inp: Input, i: nat)
    requires Valid(inp) && i + 2 < |inp.stream.tokens| && Tag(inp, i) == Single('{') && Tag(inp, i + 1) == Single('}')
    ensures ParseScope(inp, i) == Done(Step(Some(ScopeNode([])), i + 2))
  {
    assert Next(inp, i) == Done(i + 1);
    assert Statements(inp, false, EmptyBuffer(), i + 1) == Done(Block([], i + 2)) by {
      ScopeCloses(inp, EmptyBuffer(), i + 1, Step(None, i + 1));
    }
  }

  lemma SingletonScope(inp: Input, i: nat)
    requires Valid(inp) && i + 3 < |inp.stream.tokens|
    requires Tag(inp, i) == Single('{') && Tag(inp, i + 1) == Identifier && Tag(inp, i + 2) == Single('}')
    ensures ParseScope(inp, i) == Done(Step(Some(ScopeNode([Leaf(inp, i + 1)])), i + 3))
  {
    assert Next(inp, i) == Done(i + 1);
    assert Statements(inp, false, EmptyBuffer(), i + 1) == Done(Block([Leaf(inp, i + 1)], i + 3)) by {
      LoneIdentifier(inp, 0, i + 1);
      ScopeCloses(inp, EmptyBuffer(), i + 1, Step(Some(Leaf(inp, i + 1)), i + 2));
    }
  }

  /**
    `x -> { y }`: after `->` a `{` does not start the parameter part but
    the procedure's body, the third part (code/code_parser.c:527-534, 653-662).
   */
  lemma ProcedureWithBody(inp: Input, i: nat)
    requires Valid(inp) && i + 5 < |inp.stream.tokens|
    requires Tag(inp, i) == Identifier && Tag(inp, i + 1) == MinusSignGreaterThanSign && Tag(inp, i + 2) == Single('{')
    requires Tag(inp, i + 3) == Identifier && Tag(inp, i + 4) == Single('}') && IsTerminator(Tag(inp, i + 5))
    ensures ParseNode(inp, 0, i)
      == Done(Step(Some(TernaryNode(Procedure, Leaf(inp, i), None, Some(ScopeNode([Leaf(inp, i + 3)])))), i + 5))
  {
    var right, third := Step(None, i + 2), Step(Some(ScopeNode([Leaf(inp, i + 3)])), i + 5);
    assert ParseNode(inp, 150, i + 2) == Done(right);
    assert Third(inp, 150, i + 2) == Done(third) by {
      SingletonScope(inp, i + 2);
    }
    TernaryClimb(inp, 0, Leaf(inp, i), i + 1, Procedure, right, third);
    IdentifierStep(inp, 0, i);
  }

  /** A `}` in the root scope is extraneous (code/code_parser.c:791-797). */
  lemma ExtraneousBrace(inp: Input, b: NodeBuffer, i: nat)
    requires Valid(inp) && i < |inp.stream.tokens| && b.Valid() && Tag(inp, i) == Single('}')
    ensures Statements(inp, true, b, i) == Failed(Extraneous(inp.stream.tokens[i]))
  {
    assert ParseNode(inp, 0, i) == Done(Step(None, i));
  }

  /** `{ x` then `etx`: the scope is unterminated, reported at the `etx` (code/code_parser.c:784-790). */
  lemma UnterminatedScope(inp: Input, i: nat)
    requires Valid(inp) && i + 2 < |inp.stream.tokens|
    requires Tag(inp, i) == Single('{') && Tag(inp, i + 1) == Identifier && Tag(inp, i + 2) == Etx
    ensures ParseScope(inp, i) == Failed(Unterminated(inp.stream.tokens[i + 2]))
  {
    assert Next(inp, i) == Done(i + 1);
    assert Statements(inp, false, EmptyBuffer(), i + 1) == Failed(Unterminated(inp.stream.tokens[i + 2])) by {
      LoneIdentifier(inp, 0, i + 1);
    }
  }

  /**
    A pragma as a statement: its name is left current, and a name where the
    statement loop expects `;`, `}` or `etx` is not implemented
    (code/code_parser.c:482-492, 798-800).
   */
  lemma PragmaStatement(inp: Input, root: bool, b: NodeBuffer, i: nat)
    requires Valid(inp) && i + 1 < |inp.stream.tokens| && b.Valid()
    requires Tag(inp, i) == Single('#') && Tag(inp, i + 1) == Identifier
    ensures Statements(inp, root, b, i) == Failed(Unimplemented(inp.stream.tokens[i + 1]))
  {
    PragmaLeavesName(inp, 0, i);
  }

  /** `x . y` as a statement: the `.` is not implemented where a statement should end. */
  lemma ResolutionStatement(inp: Input, root: bool, b: NodeBuffer, i: nat)
    requires Valid(inp) && i + 1 < |inp.stream.tokens| && b.Valid()
    requires Tag(inp, i) == Identifier && Tag(inp, i + 1) == Single('.')
    ensures Statements(inp, root, b, i) == Failed(Unimplemented(inp.stream.tokens[i + 1]))
  {
    ResolutionNeverBinds(inp, 0, i);
  }

  /** The program `a ; ; b`: the empty statement between adds no node. */
  predicate TwoStatements(inp: Input) {
    && Valid(inp) && |inp.stream.tokens| == 5
    && Tag(inp, 0) == Identifier && Tag(inp, 1) == Single(';') && Tag(inp, 2) == Single(';')
    && Tag(inp, 3) == Identifier && Tag(inp, 4) == Etx
  }

  lemma EmptyStatementsDropped(inp: Input)
    requires TwoStatements(inp)
    ensures Parse(inp) == Done([Leaf(inp, 0), Leaf(inp, 3)])
  {
    var a, b := Leaf(inp, 0), Leaf(inp, 3);
    var first := Kept(EmptyBuffer(), Some(a));
    assert Statements(inp, true, EmptyBuffer(), 0) == Statements(inp, true, first, 2) by {
      LoneIdentifier(inp, 0, 0);
      StatementContinues(inp, true, EmptyBuffer(), 0, Step(Some(a), 1));
    }
    assert Statements(inp, true, first, 2) == Statements(inp, true, first, 3) by {
      EmptyStatement(inp, true, first, 2);
    }
    assert first.nodes == [a];
    assert Kept(first, Some(b)).nodes == [a, b];
    assert Statements(inp, true, first, 3) == Done(Block([a, b], 4)) by {
      LoneIdentifier(inp, 0, 3);
      RootEnds(inp, first, 3, Step(Some(b), 4));
    }
  }
}

=== FILE: tokens.dfy ===
/**
  Token tags and tokens (code/code_parser.h:6-27).

  A one-rune punctuation token's tag is the rune itself: the lexer casts the
  rune to `token_tag` (code/code_parser.c:313-314).  `Single(r)` models that
  cast.  The tags of the `#if 0` numeral prefixes (binary, hexadecimal,
  scientific) are never produced and are not modelled.
 */
module Tokens {

  datatype TokenTag =
    | Etx
    | Single(rune: char)
    | ExclamationMarkEqualSign
    | PercentSignEqualSign
    | AmpersandEqualSign
    | Ampersand2
    | AsteriskEqualSign
    | PlusSignEqualSign
    | MinusSignEqualSign
    | MinusSignGreaterThanSign
    | SlashEqualSign
    | LessThanSign2
    | LessThanSign2EqualSign
    | LessThanSignEqualSign
    | EqualSign2
    | GreaterThanSign2
    | GreaterThanSign2EqualSign
    | GreaterThanSignEqualSign
    | CircumflexAccentEqualSign
    | VerticalBar2
    | VerticalBarEqualSign
    | Text        // a `"`-delimited literal (current revision)
    | String      // the same literal in the earlier revision
    | Identifier
    | Digital
    | Decimal
    | Unknown

  /** A half-open byte span `[beginning, ending)` and the row/column of its first rune. */
  datatype Token = Token(tag: TokenTag, beginning: nat, ending: nat, row: nat, column: nat)

  /** The tokens that end an expression or a statement (code/code_parser.c:507-512, 586-591). */
  predicate IsTerminator(t: TokenTag) {
    t == Etx || t == Single(';') || t == Single(')') || t == Single('}') || t == Single(']')
  }
}

/**
  Failure-compatible results.  The C code reports a failure and then leaves
  through `jump` (code/code.h:229-234); here every fallible operation returns
  an `Outcome`, and the one failure it carries is the one report made before
  the jump.  The exception is `Unimplemented`: the C code stops there on a
  failed assertion (`UNIMPLEMENTED`, code/code.h:35), which the model turns
  into a failure of its own.  Some loops of the lexer never exit at the end
  of the source; `Hangs` stands for that non-termination.
 */
module Outcomes {
  import opened Tokens

  datatype Option<+T> = None | Some(value: T)

  datatype Failure =
    | UnknownRune(beginning: nat, ending: nat, row: nat, column: nat)  // decode_utf8 rejected the bytes
    | MalformedNumeral(beginning: nat, row: nat, column: nat)         // a second `.` in a numeral
    | ExpectedToken(expected: TokenTag, found: Token)
    | UnexpectedToken(found: Token)
    | Unterminated(found: Token)                                        // end of source inside `{`
    | Extraneous(found: Token)                                          // `}` at the root
    | Unimplemented(found: Token)                                       // any other token after a statement: an assertion in C

  datatype Outcome<+T> = Done(value: T) | Failed(failure: Failure) | Hangs {

    predicate IsFailure() {
      !Done?
    }

    function PropagateFailure<U>(): Outcome<U>
      requires !Done?
    {
      match this
      case Failed(f) => Failed(f)
      case Hangs => Hangs
    }

    function Extract(): T
      requires Done?
    {
      value
    }
  }
}

=== FILE: utf8.dfy ===
/**
  UTF-8 codec used by the lexer to read one rune at a time.

  Only the declarations of `decode_utf8` and `encode_utf8` are visible in the
  repository (code/code.h), so this module gives them a standard strict
  (RFC 3629) definition: a lead byte fixes the sequence length (1 to 4),
  every continuation byte must be 10xxxxxx within the ranges that exclude
  overlong forms, surrogates and code points above 0x10FFFF.  A failure
  carries the number of bytes inspected, the lead byte included.
 */
module Utf8 {

  newtype byte = b: int | 0 <= b < 0x100

  /** Unicode scalar values: everything a rune may be. */
  predicate IsScalar(cp: int) {
    (0 <= cp < 0xD800) || (0xE000 <= cp < 0x11_0000)
  }

  datatype Decoded = Rune(point: char, width: nat) | Malformed(width: nat)

  /** The source buffer is followed by the 0x03 sentinel (code/code_parser.c:124). */
  function ByteAt(s: seq<byte>, k: nat): byte {
    if k < |s| then s[k] else 3
  }

  predicate InRange(b: byte, lo: int, hi: int) {
    lo <= b as int <= hi
  }

  /** Value bits of a continuation byte. */
  function Tail(b: byte): int {
    b as int - 0x80
  }

  /** Decodes the rune starting at byte `k` of `s`. */
  function Decode(s: seq<byte>, k: nat): (r: Decoded)
    requires k < |s|
    ensures r.Rune? ==> 1 <= r.width <= 4 && k + r.width <= |s|
    ensures r.Malformed? ==> 1 <= r.width <= 4
    ensures r.Rune? ==> (r.width == 1 <==> r.point as int < 0x80)
    ensures r.Rune? && r.width == 1 ==> s[k] as int == r.point as int
    ensures r.Rune? && r.width > 1 ==> forall j :: k <= j < k + r.width ==> s[j] >= 0x80
    ensures r.Rune? && r.width > 1 ==> s[k] >= 0xC0 && forall j :: k < j < k + r.width ==> s[j] < 0xC0
    ensures s[k] < 0x80 ==> r == Rune(s[k] as int as char, 1)
  {
    var b0 := s[k];
    if b0 < 0x80 then
      Rune(b0 as int as char, 1)
    else if b0 < 0xC2 || b0 > 0xF4 then
      Malformed(1)
    else if b0 < 0xE0 then
      var b1 := ByteAt(s, k + 1);
      if !InRange(b1, 0x80, 0xBF) then Malformed(2)
      else Rune(((b0 as int - 0xC0) * 0x40 + Tail(b1)) as char, 2)
    else if b0 < 0xF0 then
      var b1 := ByteAt(s, k + 1);
      var b2 := ByteAt(s, k + 2);
      var lo := if b0 == 0xE0 then 0xA0 else 0x80;
      var hi := if b0 == 0xED then 0x9F else 0xBF;
      if !InRange(b1, lo, hi) then Malformed(2)
      else if !InRange(b2, 0x80, 0xBF) then Malformed(3)
      else Rune(((b0 as int - 0xE0) * 0x1000 + Tail(b1) * 0x40 + Tail(b2)) as char, 3)
    else
      var b1 := ByteAt(s, k + 1);
      var b2 := ByteAt(s, k + 2);
      var b3 := ByteAt(s, k + 3);
      var lo := if b0 == 0xF0 then 0x90 else 0x80;
      var hi := if b0 == 0xF4 then 0x8F else 0xBF;
      if !InRange(b1, lo, hi) then Malformed(2)
      else if !InRange(b2, 0x80, 0xBF) then Malformed(3)
      else if !InRange(b3, 0x80, 0xBF) then Malformed(4)
      else Rune(((b0 as int - 0xF0) * 0x4_0000 + Tail(b1) * 0x1000 + Tail(b2) * 0x40 + Tail(b3)) as char, 4)
  }

  /** Number of bytes `Encode` uses for a scalar. */
  function Length(cp: char): (n: nat)
    ensures 1 <= n <= 4
  {
    if cp as int < 0x80 then 1
    else if cp as int < 0x800 then 2
    else if cp as int < 0x1_0000 then 3
    else 4
  }

  /** Encodes a rune as UTF-8. */
  function Encode(cp: char): (r: seq<byte>)
    ensures |r| == Length(cp)
  {
    var v := cp as int;
    if v < 0x80 then
      [v as byte]
    else if v < 0x800 then
      [(0xC0 + v / 0x40) as byte, (0x80 + v % 0x40) as byte]
    else if v < 0x1_0000 then
      [(0xE0 + v / 0x1000) as byte, (0x80 + (v / 0x40) % 0x40) as byte, (0x80 + v % 0x40) as byte]
    else
      [(0xF0 + v / 0x4_0000) as byte, (0x80 + (v / 0x1000) % 0x40) as byte,
       (0x80 + (v / 0x40) % 0x40) as byte, (0x80 + v % 0x40) as byte]
  }

  /** Division by 64 splits a value into its high part and its low six bits. */
  lemma {:induction false} SplitSix(v: int, q: int, r: int)
    requires v == q * 0x40 + r && 0 <= r < 0x40
    ensures v / 0x40 == q && v % 0x40 == r
  {
  }

  /** Decoding what `Encode` wrote gives the rune back, whatever follows it. */
  lemma {:induction false} DecodeEncode(cp: char, rest: seq<byte>)
    ensures Decode(Encode(cp) + rest, 0) == Rune(cp, Length(cp))
  {
    var v := cp as int;
    if v < 0x80 {
    } else if v < 0x800 {
      DecodeEncode2(cp, rest);
    } else if v < 0x1_0000 {
      DecodeEncode3(cp, rest);
    } else {
      DecodeEncode4(cp, rest);
    }
  }

  lemma {:induction false} DecodeEncode2(cp: char, rest: seq<byte>)
    requires 0x80 <= cp as int < 0x800
    ensures Decode(Encode(cp) + rest, 0) == Rune(cp, 2)
  {
    var v := cp as int;
    var s := Encode(cp) + rest;
    var h, l := v / 0x40, v % 0x40;
    assert 2 <= h < 0x20;
    assert s[0] as int == 0xC0 + h && s[1] as int == 0x80 + l;
    assert ByteAt(s, 1) == s[1];
  }

  lemma {:induction false} DecodeEncode3(cp: char, rest: seq<byte>)
    requires 0x800 <= cp as int < 0x1_0000
    ensures Decode(Encode(cp) + rest, 0) == Rune(cp, 3)
  {
    var v := cp as int;
    var s := Encode(cp) + rest;
    var h, m, l := v / 0x1000, (v / 0x40) % 0x40, v % 0x40;
    SplitSix(v / 0x40, v / 0x1000, m);
    assert v == h * 0x1000 + m * 0x40 + l;
    assert s[0] as int == 0xE0 + h && s[1] as int == 0x80 + m && s[2] as int == 0x80 + l;
    assert ByteAt(s, 1) == s[1] && ByteAt(s, 2) == s[2];
  }

  lemma {:induction false} DecodeEncode4(cp: char, rest: seq<byte>)
    requires 0x1_0000 <= cp as int
    ensures Decode(Encode(cp) + rest, 0) == Rune(cp, 4)
  {
    var v := cp as int;
    var s := Encode(cp) + rest;
    var h, m1, m2, l := v / 0x4_0000, (v / 0x1000) % 0x40, (v / 0x40) % 0x40, v % 0x40;
    SplitSix(v / 0x40, v / 0x1000, m2);
    SplitSix(v / 0x1000, v / 0x4_0000, m1);
    assert v == h * 0x4_0000 + m1 * 0x1000 + m2 * 0x40 + l;
    assert s[0] as int == 0xF0 + h && s[1] as int == 0x80 + m1;
    assert s[2] as int == 0x80 + m2 && s[3] as int == 0x80 + l;
    assert ByteAt(s, 1) == s[1] && ByteAt(s, 2) == s[2] && ByteAt(s, 3) == s[3];
  }

  /** Every rune `Decode` accepts is spelled by exactly the bytes `Encode` produces. */
  lemma {:induction false} EncodeDecode(s: seq<byte>, k: nat)
    requires k < |s| && Decode(s, k).Rune?
    ensures Encode(Decode(s, k).point) == s[k..k + Decode(s, k).width]
  {
    var r := Decode(s, k);
    var v := r.point as int;
    var b0 := s[k] as int;
    if r.width == 1 {
    } else if r.width == 2 {
      var b1 := s[k + 1] as int;
      SplitSix(v, b0 - 0xC0, b1 - 0x80);
    } else if r.width == 3 {
      var b1 := s[k + 1] as int;
      var b2 := s[k + 2] as int;
      SplitSix(v, (b0 - 0xE0) * 0x40 + (b1 - 0x80), b2 - 0x80);
      SplitSix(v / 0x40, b0 - 0xE0, b1 - 0x80);
      assert v / 0x1000 == b0 - 0xE0;
    } else {
      var b1 := s[k + 1] as int;
      var b2 := s[k + 2] as int;
      var b3 := s[k + 3] as int;
      SplitSix(v, (b0 - 0xF0) * 0x1000 + (b1 - 0x80) * 0x40 + (b2 - 0x80), b3 - 0x80);
      SplitSix(v / 0x40, (b0 - 0xF0) * 0x40 + (b1 - 0x80), b2 - 0x80);
      SplitSix(v / 0x1000, b0 - 0xF0, b1 - 0x80);
      assert v / 0x4_0000 == b0 - 0xF0;
    }
  }

  /** Feeding only the lead byte of a multi-byte sequence is rejected. */
  lemma {:induction false} TruncationRejected(cp: char)
    requires Length(cp) > 1
    ensures Decode(Encode(cp)[..1], 0).Malformed?
  {
  }
}
